=== FILE: README.md ===
# Duo API request signing and dispatch, modelled in Dafny

This project models the request side of the Duo Java client's `Http` class
(`com.duosecurity.client.Http`). An `Http` object collects a method, host, path,
headers and parameters. It can then do three things:

- **Sign the request.** It builds a *canonical string* from those fields plus
  the date, and adds an `Authorization` header. For signature version 2 it also
  adds a `Date` header.
- **Build the request.** It puts the form-encoded query string either in the URL
  (GET, DELETE) or in the body (POST, PUT). Any other method is refused.
- **Send it with retries.** While the server answers 429 (Too Many Requests,
  section 4 of RFC 6585), it resends with capped, jittered exponential backoff,
  up to eight calls in all.

Modules, in dependency order:

| module | file | what it holds |
|---|---|---|
| `Results` | results.dfy | `Option` and `Result` |
| `Strings` | strings.dfy | `Join` (`Util.join`), `Split` and its inverse lemmas, `ReplaceAll` (`String.replace`), ASCII case mapping |
| `Unicode` | unicode.dfy | UTF-8 (section 3 of RFC 3629) with its decoder, UTF-16 code units |
| `KeyOrder` | key_order.dfy | `String.compareTo` as an order on characters, shown equal to UTF-16 code-unit order; sorting the keys |
| `FormEncoding` | form_encoding.dfy | `java.net.URLEncoder.encode(_, "UTF-8")` |
| `QueryEncoder` | query_encoder.dfy | `createQueryString`, and RFC 3986 percent-encoding as its reference |
| `QueryDecoder` | query_decoder.dfy | percent-decoding and query parsing, the inverse of the encoder |
| `Client` | client.dfy | the `Http` state, its constructor, `addHeader`, `addParam` |
| `Canonical` | canonical.dfy | `canonRequest` |
| `Signer` | signer.dfy | `signRequest`, `signHMAC` |
| `Retry` | retry.dfy | the retry loop of `executeRequest(Request)` |
| `Dispatch` | dispatch.dfy | `executeHttpRequest` |
| `Receiver` | receiver.dfy | a receiver rebuilding the canonical string from the request it gets |

The central results:

- **Component encoding.** `URLEncoder` followed by the three rewrites
  (`+`→`%20`, `*`→`%2A`, `%7E`→`~`) is exactly RFC 3986 percent-encoding. That
  encoding leaves only the unreserved characters `A-Z a-z 0-9 - . _ ~` as they
  are and writes every other UTF-8 byte as `%XY`.
- **Query string.** It does not depend on the `HashMap`'s iteration order. It
  splits back into one `name=value` piece per parameter, in ascending key order.
- **Decoding.** Parsing the query string gives back every parameter with its
  value. So two different parameter maps never produce the same signed query
  string, as long as no name or value holds an unpaired surrogate. With one they
  can: `URLEncoder` writes the surrogate as an encoded `?`, so `{"\uD800": "x"}`
  and `{"?": "x"}` both give `%3F=x`.
- **Canonical string.** It splits back into its fields, and the query string is
  the last of them.
- **End to end.** The request that is built after signing lets a receiver with
  the same keys rebuild exactly the canonical string that was signed. This holds
  for a host and path that OkHttp's URL parser sends unchanged (a lower-case
  host name, a path of unreserved characters and `/` with no dot segment), and
  for a host and date that OkHttp's header builder keeps unchanged.
- **Retries.** The retry loop's outcome is fully determined by the server's
  answers, and every sleep is bounded.

## Model

| member | source | states |
|---|---|---|
| `FormEncoding.FormEncodeCharShape` | duo-client/src/main/java/com/duosecurity/client/Http.java:208-209 | In `URLEncoder`'s output, a `+` appears exactly when the character was a space, and a `*` exactly when it was a `*`. A `%` appears exactly when the character is outside the pass-through set and not a space. |
| `FormEncoding.FormEncodeChar` | duo-client/src/main/java/com/duosecurity/client/Http.java:208-209 | `URLEncoder` keeps a character exactly when it is in the pass-through set `A-Z a-z 0-9 . - * _`. The output is one character long exactly for those and for space. It only ever uses pass-through characters, `+`, `%` and upper-case hex digits. |
| `FormEncoding.FormEncode` | duo-client/src/main/java/com/duosecurity/client/Http.java:208-209 | The encoding is never shorter than its input, uses only pass-through characters, `+`, `%` and upper-case hex digits, and is the input itself when every character passes through. |
| `Strings.ReplaceAll` | duo-client/src/main/java/com/duosecurity/client/Http.java:210-212 | `String.replace` with a non-empty target never lengthens the text when the replacement is no longer than the target, and never shortens it when the replacement is no shorter. |
| `Strings.ReplaceWithoutTarget` | duo-client/src/main/java/com/duosecurity/client/Http.java:210-212 | A text in which the target's first character does not occur is left unchanged. |
| `Strings.ReplaceKeepsAbsent` | duo-client/src/main/java/com/duosecurity/client/Http.java:210-212 | A replacement never introduces a character found neither in the text nor in the replacement. |
| `QueryEncoder.Patch` | duo-client/src/main/java/com/duosecurity/client/Http.java:210-212 | After the three rewrites no `+` and no `*` is left, whatever the input, and a text with no `+`, `*` or `%` passes through unchanged. |
| `QueryEncoder.Pairs` | duo-client/src/main/java/com/duosecurity/client/Http.java:218 | There is one `name=value` piece per key. |
| `QueryEncoder.PairsSplit` | duo-client/src/main/java/com/duosecurity/client/Http.java:218 | Each piece, cut at `=`, is exactly the encoded name and the encoded value of its key, in key order. |
| `Strings.Join` | duo-client/src/main/java/com/duosecurity/client/Http.java:221 | Joining no parts gives the empty string, one part gives that part. Otherwise the join starts with the first part followed by the separator. |
| `Signer.AuthorizationFor` | duo-client/src/main/java/com/duosecurity/client/Http.java:144-145 | The `Authorization` value is `Basic ` followed by the base64 of `ikey:` and the hex HMAC of the canonical string, or of `ikey:` alone when the HMAC fails. |
| `Unicode.Utf8RoundTrip` | duo-client/src/main/java/com/duosecurity/client/Http.java:209 | The UTF-8 bytes that `URLEncoder` percent-encodes decode back to the character's scalar value. |
| `Unicode.Utf8Injective` | duo-client/src/main/java/com/duosecurity/client/Http.java:209 | Different characters have different UTF-8 byte sequences. |
| `QueryEncoder.PatchedFormEncodeIsPercentEncode` | duo-client/src/main/java/com/duosecurity/client/Http.java:208-217 | `URLEncoder.encode` followed by the three `replace` calls equals RFC 3986 percent-encoding for every string. |
| `QueryEncoder.EncodeComponent` | duo-client/src/main/java/com/duosecurity/client/Http.java:208-217 | An encoded name or value is its RFC 3986 percent-encoding. It holds only unreserved characters, `%` and upper-case hex digits. It never contains `+`, `*`, `&` or `=`, so it cannot break the `name=value&...` framing. |
| `KeyOrder.LessIsCompareTo` | duo-client/src/main/java/com/duosecurity/client/Http.java:205 | The character-rank order used for sorting coincides with `String.compareTo`, i.e. lexicographic order of UTF-16 code units. |
| `KeyOrder.LessTransitive` | duo-client/src/main/java/com/duosecurity/client/Http.java:205 | The key order is transitive, as `Collections.sort` requires. |
| `KeyOrder.LessTotal` | duo-client/src/main/java/com/duosecurity/client/Http.java:205 | Of two different keys, one is less than the other, so the sorted order is determined. |
| `KeyOrder.Sort` | duo-client/src/main/java/com/duosecurity/client/Http.java:201-205 | The sorted key list is strictly ascending and has the same length and the same elements as the key set. |
| `KeyOrder.SortedUnique` | duo-client/src/main/java/com/duosecurity/client/Http.java:205 | Two strictly ascending lists with the same elements are equal. |
| `KeyOrder.SortOrderIndependent` | duo-client/src/main/java/com/duosecurity/client/Http.java:201-205 | Sorting gives the same list whatever order the keys were collected in. |
| `Strings.SplitJoin` | duo-client/src/main/java/com/duosecurity/client/Http.java:221 | Cutting a separator-join of a non-empty list of parts at the separator gives back the parts, when no part contains the separator. |
| `QueryEncoder.QueryString` | duo-client/src/main/java/com/duosecurity/client/Http.java:196-222 | The query string is empty exactly when there are no parameters. It never contains a newline or `?`. |
| `QueryEncoder.QueryStringOrderIndependent` | duo-client/src/main/java/com/duosecurity/client/Http.java:201-205 | Any two iteration orders of the same parameter map produce the same query string. |
| `QueryEncoder.QueryStringStructure` | duo-client/src/main/java/com/duosecurity/client/Http.java:207-221 | For a non-empty parameter map, the query string split at `&` has one piece per parameter, keys strictly ascending. Each piece split at `=` is exactly the encoded name and the encoded value. |
| `QueryEncoder.ExampleQueryString` | duo-client/src/main/java/com/duosecurity/client/Http.java:196-222 | `{x: "y*z", a: "b c"}` encodes as `a=b%20c&x=y%2Az`. |
| `QueryDecoder.PercentDecodeEncode` | duo-client/src/main/java/com/duosecurity/client/Http.java:208-217 | Percent-decoding undoes the component encoding for every name or value without unpaired surrogates, non-ASCII characters included. |
| `QueryDecoder.PercentEncodeInjective` | duo-client/src/main/java/com/duosecurity/client/Http.java:208-217 | Different names or values without unpaired surrogates have different encodings. |
| `QueryDecoder.ParseQueryString` | duo-client/src/main/java/com/duosecurity/client/Http.java:196-222 | Parsing the query string gives back the parameters as `(name, value)` pairs, one per parameter, in ascending name order, each name with its value. |
| `QueryDecoder.QueryStringInjective` | duo-client/src/main/java/com/duosecurity/client/Http.java:196-222 | Equal query strings come only from equal parameter maps, whatever the iteration orders, for names and values without unpaired surrogates. So the signed string pins down every such parameter. |
| `Client.NewHttp` | duo-client/src/main/java/com/duosecurity/client/Http.java:41-48 | A new request has an upper-cased method, the given host and path, no parameters, and a single header, `Host`. |
| `Client.AddHeader` | duo-client/src/main/java/com/duosecurity/client/Http.java:170-172 | Adding a header appends it and keeps every existing header, including ones with the same name. The count of that name rises by one, other counts do not change, and nothing else changes. |
| `Client.AddParam` | duo-client/src/main/java/com/duosecurity/client/Http.java:174-176 | Adding a parameter sets that name to the value and leaves every other parameter as it was. The map grows only when the name is new, and nothing else changes. |
| `Canonical.CanonRequest` | duo-client/src/main/java/com/duosecurity/client/Http.java:182-194 | The canonical string is the newline-join of its fields: date (version 2 only), upper-cased method, lower-cased host, path, and query string, with nothing after the query string. |
| `Canonical.CanonSplitsIntoFields` | duo-client/src/main/java/com/duosecurity/client/Http.java:182-194 | When method, host, path and date hold no newline, cutting the canonical string at newlines gives back exactly its fields, with the query string last. |
| `Canonical.CanonWithoutDateIgnoresDate` | duo-client/src/main/java/com/duosecurity/client/Http.java:185-187 | For any version other than 2, the date has no influence. The string then has exactly four lines when method, host and path hold no newline. |
| `Canonical.CanonVersion2AddsDateLine` | duo-client/src/main/java/com/duosecurity/client/Http.java:185-187 | The version 2 string is the version 1 string with the date line in front. |
| `Canonical.ExampleCanonRequest` | duo-client/src/main/java/com/duosecurity/client/Http.java:182-194 | `post` to `API.example.com` path `/p` on date `D`, version 2, gives `D\nPOST\napi.example.com\n/p\n`. |
| `Signer.SignHmac` | duo-client/src/main/java/com/duosecurity/client/Http.java:152-160 | The signature is the hex HMAC when it can be computed, and the empty string when computing it throws. |
| `Signer.SignRequest` | duo-client/src/main/java/com/duosecurity/client/Http.java:138-150 | Signing keeps all existing headers as a prefix. It appends `Authorization` (`Basic` plus base64 of `ikey:hmac(canon)`) and then, for version 2 only, `Date`. The `Authorization` count rises by one, the `Date` count rises by one exactly for version 2, all other counts and all other fields are unchanged. |
| `Signer.SignRequestDefault` | duo-client/src/main/java/com/duosecurity/client/Http.java:133-136 | Signing without a version signs with version 2, so a `Date` header is always added. |
| `Retry.Backoff` | duo-client/src/main/java/com/duosecurity/client/Http.java:118-121 | For attempts 1 to 7, the ones the loop reaches, every sleep is at most 32000 ms. It is at least the capped un-jittered backoff `2^(n-1)*1000`, and less than that backoff plus 1000. |
| `Retry.BackoffSaturates` | duo-client/src/main/java/com/duosecurity/client/Http.java:118-121 | At attempts 6 and 7, the last two the loop reaches, the sleep is exactly the 32000 ms cap whatever the jitter. |
| `Retry.ExecuteRequest` | duo-client/src/main/java/com/duosecurity/client/Http.java:114-127 | Between 1 and 8 calls are made, all with the same request. Every answer but the last is 429. The last answer is returned, and it is not 429 unless all 8 calls were used. Exactly one sleep precedes each resend, with the computed backoff and within its bounds. |
| `Retry.RetryOutcomeUnique` | duo-client/src/main/java/com/duosecurity/client/Http.java:114-127 | The number of calls and the returned status are determined by the server's answers alone. |
| `Retry.TotalSleepBounded` | duo-client/src/main/java/com/duosecurity/client/Http.java:117-121 | One request sleeps at most 7 × 32000 ms in all. |
| `Retry.ExampleThreeThrottledThenOk` | duo-client/src/main/java/com/duosecurity/client/Http.java:114-127 | Three 429 answers followed by a 200 mean four calls, and the 200 is returned. |
| `Retry.ExampleAlwaysThrottled` | duo-client/src/main/java/com/duosecurity/client/Http.java:114-127 | A server that always answers 429 is called exactly eight times, and its 429 is returned, not raised. |
| `Dispatch.ParseVerb` | duo-client/src/main/java/com/duosecurity/client/Http.java:90-107 | Exactly `GET`, `POST`, `PUT` and `DELETE` are recognised (case-sensitive, after the constructor upper-cased the method). |
| `Dispatch.BuildRequest` | duo-client/src/main/java/com/duosecurity/client/Http.java:85-110 | Any other method yields `UnsupportedOperationException("Unsupported method: " + method)`. POST and PUT carry the query string as the body, with the bare URL. GET and DELETE have no body, and append `?` plus the query string only when it is non-empty. The headers are passed on unchanged. |
| `Dispatch.WireQueryRecoversQuery` | duo-client/src/main/java/com/duosecurity/client/Http.java:86-103 | Whatever the method, a receiver reading the body, or the URL after its first `?`, gets back exactly the query string. The URL before any `?` is `https://` + host + path, provided host and path are ones OkHttp's URL parser sends unchanged (`Client.UrlKeeps`: a non-empty lower-case host name of at most 63 characters with no empty label, and a path starting with `/` of unreserved characters and `/` with no `.` or `..` segment, so no `?` and no `#`). |
| `Dispatch.ExecuteHttpRequest` | duo-client/src/main/java/com/duosecurity/client/Http.java:85-112 | A refused method raises the exception before any call or sleep. Otherwise the built request goes through the retry loop unchanged, and the loop's last status is returned. The sleep before resend `k + 1` is the backoff for attempt `k + 1` with the `k`-th jitter, and at most 32000 ms. |
| `Receiver.SignedRequestRebuildsCanon` | duo-client/src/main/java/com/duosecurity/client/Http.java:138-150 | For a request signed and then built, a receiver rebuilds exactly the signed canonical string from the request's method, `Host` and `Date` headers, URL path and query string. Its `Authorization` header is what the same keys give for that string. This needs `Host` first, no earlier `Date` or `Authorization` header, a host and path that OkHttp's URL parser sends unchanged (`Client.UrlKeeps`), and a host and (for version 2) date that OkHttp's header builder keeps unchanged: no control character, only ASCII, no space or control character at either end. |

## Left out

- The transport (OkHttp `newCall(...).execute()`) is a function from the request and the call number to a status code. Response bodies are not modelled.
- `executeRequestRaw()` (Http.java:80-83) returns the response body as text, without parsing it. `executeJSONRequest()` (Http.java:69-78) parses that text as JSON and throws `Exception("Duo error code (" + code + "): " + message)` when `stat` is not `"OK"`. `executeRequest()` (Http.java:64-67) returns the `response` field of that JSON object. Response bodies, JSON and this error path are not part of this model.
- `sleep` / `Thread.sleep` is not performed. The sleeps are returned as a list of durations.
- `random.nextInt(1000)` is a function from the retry number to a value. It is required to lie in `[0, 1000)`, which is all `Random` promises.
- Connection, read and write timeouts are not modelled, and neither is the proxy: they are transport configuration. As written, the four-argument constructor assigns `timeout` only after the client's timeouts have been set from the default of 60. Also, `setProxy` records a proxy that is never handed to the client.
- HMAC-SHA1, its hex rendering (`Util.hmacSha1`, `Util.bytes_to_hex`) and `Base64.encodeBytes(auth.getBytes())` are library code whose source is not part of this model. They are function parameters, and the HMAC may fail (`None`), which takes the `catch` branch.
- `formatDate(new Date())` (RFC 2822 date via `SimpleDateFormat`) reads the clock. The formatted date is an input to signing.
- `Util.join` is not part of this model. It is taken to be a join with a separator between consecutive elements, which its use at Http.java:221 implies.
- `toUpperCase()` / `toLowerCase()` are modelled for ASCII letters only. Java's locale-dependent, full-Unicode case mapping is not modelled.
- Java strings may hold unpaired surrogates, which Dafny's `char` cannot. `URLEncoder` writes such a surrogate as an encoded `?`, and that case is not modelled.
- A `null` parameter value (`addParam(name, null)`) makes `URLEncoder.encode` throw. The model's parameter values are never null.
- `UnsupportedEncodingException` cannot arise for `"UTF-8"` and is not modelled.
- `HashMap` iteration order is unspecified. The model carries an explicit key order, and `QueryEncoder.QueryStringOrderIndependent` shows the result does not depend on it.
- Header values in the built request are passed as a list. Every header goes through OkHttp's `Headers.Builder.add` (Http.java:47, 146, 148 and 171), which is library code not part of this model. It throws `IllegalArgumentException` for a name or value holding a control character or a non-ASCII character (some OkHttp versions allow a tab inside a value), and it trims values. `Client.HeaderKeeps` states which values it keeps as they are.
- Client.NewHttp, Client.AddHeader: return a value for every host and header value. For one that `Headers.Builder.add` rejects, the Java code throws instead, and for one with leading or trailing whitespace it stores the trimmed value.
- Receiver.SignedRequestRebuildsCanon: requires a host and date that `Headers.Builder.add` keeps unchanged, since for others the Java code throws or trims. It assumes nothing of the `base64` parameter, whose output the real encoder keeps within ASCII.
- Dispatch.BuildRequest, Dispatch.ExecuteHttpRequest, Dispatch.WireQueryRecoversQuery, Receiver.SignedRequestRebuildsCanon: the URL goes through OkHttp's `Request.Builder.url` (Http.java:110), library code not part of this model. It throws for a URL it cannot parse (an empty host, for one) before any call is made. It lowers the host, re-encodes characters such as a space in the path, resolves `.` and `..` segments, and cuts off a fragment starting at `#`. The model keeps the concatenated string as the URL and always makes the call. The two lemmas therefore require `Client.UrlKeeps`, a host and path that are sufficient, by the behaviour just described, for OkHttp to send them unchanged. For any other host or path they promise nothing about what OkHttp sends. OkHttp's finer host checks (internationalised names, label length beyond the 63-character bound on the whole host) are not modelled.
- Retry.Backoff, Retry.BackoffSaturates: stated only for attempts 1 to 7, the ones the loop reaches. Beyond them the Java expression no longer matches the model: from attempt 23 the `(int)` cast of `Math.pow(2, n-1) * 1000` saturates at `Integer.MAX_VALUE`, and adding the jitter then wraps negative.
- Retry.ExecuteRequest: an exception from `execute()` (Http.java:115, 122) or from `sleep` (Http.java:129-131) ends the loop at once, without retrying. The model's transport always answers and sleeping never fails, so that path is not modelled.
- QueryDecoder.QueryStringInjective: holds only for names and values without unpaired surrogates. `URLEncoder` writes an unpaired surrogate as `?`, so `{"\uD800": "x"}` and `{"?": "x"}` both give `%3F=x`. A Dafny `string` cannot hold such a surrogate, so the model cannot state this case.
- Sort order: names are sorted with `String.compareTo`, which compares UTF-16 code units. That order differs from code-point (UTF-8 byte) order only when a supplementary character meets a character in U+E000–U+FFFF.

=== FILE: canonical.dfy ===
/** `canonRequest` (Http.java:182-194): the exact text that is signed. For
    signature version 2 it starts with the date line; then the upper-cased
    method, the lower-cased host, the path as given and the query string, one
    per line, with nothing after the query string. */
module Canonical {
  import opened Strings
  import opened QueryEncoder
  import opened Client

  /** The fields of the canonical string, in order. */
  function CanonFields(h: Http, date: string, sigVersion: int): seq<string>
    requires Valid(h)
  {
    (if sigVersion == 2 then [date] else []) + [ToUpper(h.verb), ToLower(h.host), h.uri, QueryOf(h)]
  }

  lemma JoinOfFour(m: string, o: string, u: string, q: string)
    ensures Join([m, o, u, q], "\n") == m + "\n" + (o + "\n" + (u + "\n" + q))
  {
    var fields := [m, o, u, q];
    assert fields[1..] == [o, u, q] && fields[1..][1..] == [u, q] && fields[1..][1..][1..] == [q];
    assert Join([u, q], "\n") == u + "\n" + q;
    assert Join([o, u, q], "\n") == o + "\n" + Join([u, q], "\n");
  }

  /** `canonRequest(date, sig_version)`: the fields joined by newlines, the date
      line present only for version 2. */
  function CanonRequest(h: Http, date: string, sigVersion: int): (canon: string)
    requires Valid(h)
    ensures canon == Join(CanonFields(h, date, sigVersion), "\n")
  {
    var m, o, u, q := ToUpper(h.verb), ToLower(h.host), h.uri, QueryOf(h);
    JoinOfFour(m, o, u, q);
    var tail := [m, o, u, q];
    assert ([date] + tail)[1..] == tail && [] + tail == tail;
    var body := m + "\n" + (o + "\n" + (u + "\n" + q));
    (if sigVersion == 2 then date + "\n" else "") + body
  }

  /** The inverse: cutting the canonical string at newlines gives back exactly the
      fields, the query string being the last one, as long as the caller's method,
      host, path and date hold no newline. */
  lemma CanonSplitsIntoFields(h: Http, date: string, sigVersion: int)
    requires Valid(h)
    requires '\n' !in h.verb && '\n' !in h.host && '\n' !in h.uri
    requires sigVersion == 2 ==> '\n' !in date
    ensures Split(CanonRequest(h, date, sigVersion), '\n') == CanonFields(h, date, sigVersion)
    ensures Split(CanonRequest(h, date, sigVersion), '\n')[|CanonFields(h, date, sigVersion)| - 1] == QueryOf(h)
  {
    CanonFieldsHaveNoNewline(h, date, sigVersion);
    SplitJoin(CanonFields(h, date, sigVersion), '\n');
  }

  lemma CanonFieldsHaveNoNewline(h: Http, date: string, sigVersion: int)
    requires Valid(h)
    requires '\n' !in h.verb && '\n' !in h.host && '\n' !in h.uri
    requires sigVersion == 2 ==> '\n' !in date
    ensures forall i :: 0 <= i < |CanonFields(h, date, sigVersion)| ==> '\n' !in CanonFields(h, date, sigVersion)[i]
  {
    CaseMappingKeepsChar(h.verb, '\n');
    CaseMappingKeepsChar(h.host, '\n');
    LinesWithoutNewline(date, ToUpper(h.verb), ToLower(h.host), h.uri, QueryOf(h), sigVersion);
  }

  lemma LinesWithoutNewline(date: string, m: string, o: string, u: string, q: string, sigVersion: int)
    requires '\n' !in m && '\n' !in o && '\n' !in u && '\n' !in q
    requires sigVersion == 2 ==> '\n' !in date
    ensures var lines := (if sigVersion == 2 then [date] else []) + [m, o, u, q];
            forall i :: 0 <= i < |lines| ==> '\n' !in lines[i]
  {
    var tail := [m, o, u, q];
    assert forall i :: 0 <= i < |tail| ==> '\n' !in tail[i];
    if sigVersion == 2 {
      assert forall i :: 1 <= i < |tail| + 1 ==> ([date] + tail)[i] == tail[i - 1];
    } else {
      assert [] + tail == tail;
    }
  }

  /** Version 1 (and any version other than 2) does not look at the date. */
  lemma CanonWithoutDateIgnoresDate(h: Http, date1: string, date2: string, sigVersion: int)
    requires Valid(h) && sigVersion != 2
    ensures CanonRequest(h, date1, sigVersion) == CanonRequest(h, date2, sigVersion)
    ensures '\n' !in h.verb && '\n' !in h.host && '\n' !in h.uri ==>
              |Split(CanonRequest(h, date1, sigVersion), '\n')| == 4
  {
    if '\n' !in h.verb && '\n' !in h.host && '\n' !in h.uri {
      CanonSplitsIntoFields(h, date1, sigVersion);
    }
  }

  /** Version 2 is the version 1 string with the date line in front. */
  lemma CanonVersion2AddsDateLine(h: Http, date: string)
    requires Valid(h)
    ensures CanonRequest(h, date, 2) == date + "\n" + CanonRequest(h, date, 1)
  {
    var body := ToUpper(h.verb) + "\n" + (ToLower(h.host) + "\n" + (h.uri + "\n" + QueryOf(h)));
    assert CanonRequest(h, date, 1) == "" + body == body;
    assert CanonRequest(h, date, 2) == date + "\n" + body;
  }

  lemma ExampleHost(h: Http)
    requires h == NewHttp("post", "API.example.com", "/p")
    ensures ToUpper(h.verb) == "POST" && ToLower(h.host) == "api.example.com" && QueryOf(h) == ""
  {
    assert h.verb == ToUpper("post");
  }

  /** Worked example: date `D`, version 2, `post` to `API.example.com` path `/p`,
      no parameters. */
  lemma ExampleCanonRequest()
    ensures CanonRequest(NewHttp("post", "API.example.com", "/p"), "D", 2)
         == "D\nPOST\napi.example.com\n/p\n"
  {
    var h := NewHttp("post", "API.example.com", "/p");
    ExampleHost(h);
    ExampleCanonConcat(ToUpper(h.verb), ToLower(h.host), h.uri, QueryOf(h));
  }

  lemma ExampleCanonConcat(m: string, o: string, u: string, q: string)
    requires m == "POST" && o == "api.example.com" && u == "/p" && q == ""
    ensures ("D" + "\n") + (m + "\n" + (o + "\n" + (u + "\n" + q))) == "D\nPOST\napi.example.com\n/p\n"
  {
  }
}

=== FILE: client.dfy ===
/** The state of one `Http` object (Http.java:25-33) as an immutable value, with
    the constructor and the two mutators the signer depends on. The parameter map
    carries `keyOrder`, the order its key set is iterated in; Java's `HashMap`
    fixes some order the program cannot see, and the model keeps insertion order.
    `QueryEncoder.QueryStringOrderIndependent` shows the choice is immaterial. */
module Client {
  import opened Strings
  import opened KeyOrder
  import opened QueryEncoder

  datatype Header = Header(name: string, value: string)

  datatype Http = Http(
    verb: string,
    host: string,
    uri: string,
    headers: seq<Header>,
    params: map<string, string>,
    keyOrder: seq<string>)

  /** The key order enumerates the parameter names, each once. */
  ghost predicate Valid(h: Http)
  {
    Enumerates(h.keyOrder, h.params)
  }

  /** Number of headers called `name`. */
  function CountNamed(headers: seq<Header>, name: string): nat
  {
    if |headers| == 0 then 0
    else (if headers[0].name == name then 1 else 0) + CountNamed(headers[1..], name)
  }

  lemma {:induction false} CountNamedAppend(a: seq<Header>, b: seq<Header>, name: string)
    ensures CountNamed(a + b, name) == CountNamed(a, name) + CountNamed(b, name)
  {
    if |a| == 0 {
      assert a + b == b;
    } else {
      assert (a + b)[1..] == a[1..] + b;
      CountNamedAppend(a[1..], b, name);
    }
  }

  /** `new Http(method, host, uri)` (Http.java:41-48): the method is upper-cased,
      there are no parameters, and the only header is `Host`. */
  function NewHttp(verb: string, host: string, uri: string): (h: Http)
    ensures Valid(h)
    ensures |h.verb| == |verb|
    ensures forall i :: 0 <= i < |h.verb| ==> !IsLowerAscii(h.verb[i])
    ensures ToLower(h.verb) == ToLower(verb)
    ensures h.host == host && h.uri == uri
    ensures h.headers == [Header("Host", host)]
    ensures |h.params| == 0
  {
    ToUpperProperties(verb);
    assert ToLower(ToUpper(verb)) == ToLower(verb);
    Http(ToUpper(verb), host, uri, [Header("Host", host)], map[], [])
  }

  /** A header value that OkHttp's `Headers.Builder.add` both accepts and keeps
      as it is: no control character (tab included, which some OkHttp versions reject), nothing outside ASCII, and
      no space or control character at either end (`add` trims those). Any other
      value makes `add` throw or changes it; OkHttp is not part of this model. */
  predicate HeaderKeeps(v: string)
  {
    && (forall i :: 0 <= i < |v| ==> ' ' <= v[i] < '\U{7F}')
    && (|v| > 0 ==> v[0] > ' ' && v[|v| - 1] > ' ')
  }

  /** A host and path that OkHttp's `Request.Builder.url` accepts and sends as
      they are. OkHttp may reject or rewrite any other URL: an upper-case host
      is lowered, a space in the path becomes `%20`, an empty host cannot be
      parsed. OkHttp is not part of this model. */
  predicate UrlKeeps(host: string, uri: string)
  {
    HostKeeps(host) && PathKeeps(uri)
  }

  /** A non-empty name of at most 63 lower-case letters, digits, `-` and `.`,
      with no empty label. */
  predicate HostKeeps(host: string)
  {
    && 0 < |host| <= 63
    && (forall i :: 0 <= i < |host| ==>
          ('a' <= host[i] <= 'z') || ('0' <= host[i] <= '9') || host[i] == '-' || host[i] == '.')
    && host[0] != '.' && host[|host| - 1] != '.'
    && (forall i :: 0 <= i < |host| - 1 ==> host[i] == '.' ==> host[i + 1] != '.')
  }

  /** A path that starts with `/`, holds only unreserved characters and `/`,
      and has no `.` or `..` segment (OkHttp would resolve those). */
  predicate PathKeeps(uri: string)
  {
    && |uri| > 0 && uri[0] == '/'
    && (forall i :: 0 <= i < |uri| ==> Unreserved(uri[i]) || uri[i] == '/')
    && (forall segment :: segment in Split(uri, '/') ==> segment != "." && segment != "..")
  }

  /** Such a URL holds no `?` and no `#`, in host or path. */
  lemma UrlKeepsHasNoDelimiters(host: string, uri: string)
    requires UrlKeeps(host, uri)
    ensures '?' !in host && '?' !in uri && '#' !in host && '#' !in uri
  {
  }

  /** An API host and path of the usual shape are sent as they are. */
  lemma ExampleUrlKeeps()
    ensures UrlKeeps("api.example.com", "/auth/v2/check")
  {
    ExampleHostKeeps();
    ExamplePathKeeps();
  }

  lemma ExampleHostKeeps()
    ensures HostKeeps("api.example.com")
  {
  }

  lemma ExamplePathKeeps()
    ensures PathKeeps("/auth/v2/check")
  {
    SplitPartsLack("/auth/v2/check", '/', '.');
  }

  /** A path with a space, an upper-case host and an empty host are not. */
  lemma ExampleUrlRewritten()
    ensures !UrlKeeps("api.example.com", "/a b")
    ensures !UrlKeeps("API.example.com", "/p") && !UrlKeeps("", "/p")
  {
    assert "/a b"[2] == ' ';
    assert "API.example.com"[0] == 'A';
  }

  /** `addHeader` (Http.java:170-172): appends, keeping any header of the same name. */
  function AddHeader(h: Http, name: string, value: string): (r: Http)
    ensures |r.headers| == |h.headers| + 1
    ensures r.headers[..|h.headers|] == h.headers && r.headers[|h.headers|] == Header(name, value)
    ensures CountNamed(r.headers, name) == CountNamed(h.headers, name) + 1
    ensures forall other :: other != name ==> CountNamed(r.headers, other) == CountNamed(h.headers, other)
    ensures r.(headers := h.headers) == h
  {
    CountNamedAppend(h.headers, [Header(name, value)], name);
    forall other | other != name
      ensures CountNamed(h.headers + [Header(name, value)], other) == CountNamed(h.headers, other)
    {
      CountNamedAppend(h.headers, [Header(name, value)], other);
    }
    h.(headers := h.headers + [Header(name, value)])
  }

  /** `addParam` (Http.java:174-176), i.e. `HashMap.put`: sets or overwrites one parameter. */
  function AddParam(h: Http, name: string, value: string): (r: Http)
    requires Valid(h)
    ensures Valid(r)
    ensures name in r.params && r.params[name] == value
    ensures forall k :: k != name ==> (k in r.params <==> k in h.params)
    ensures forall k :: k != name && k in h.params ==> r.params[k] == h.params[k]
    ensures |r.params| == |h.params| + (if name in h.params then 0 else 1)
    ensures r.(params := h.params, keyOrder := h.keyOrder) == h
  {
    var order := if name in h.params then h.keyOrder else h.keyOrder + [name];
    var r := h.(params := h.params[name := value], keyOrder := order);
    assert Valid(r);
    EnumerationSize(order, r.params);
    EnumerationSize(h.keyOrder, h.params);
    r
  }

  /** The query string `h` currently produces (`createQueryString`). */
  function QueryOf(h: Http): string
    requires Valid(h)
  {
    QueryString(h.params, h.keyOrder)
  }
}

=== FILE: dispatch.dfy ===
/** `executeHttpRequest` (Http.java:85-112): turns the `Http` state into the
    request handed to the transport, then runs the retry loop on it. GET and
    DELETE carry the query string in the URL, and only when it is non-empty;
    POST and PUT carry it as an `application/x-www-form-urlencoded` body and
    leave the URL bare; any other method is refused before anything is sent. */
module Dispatch {
  import opened Results
  import opened Strings
  import opened Client
  import opened Retry

  datatype Verb = Get | Post | Put | Delete

  function VerbName(v: Verb): string
  {
    match v
    case Get => "GET"
    case Post => "POST"
    case Put => "PUT"
    case Delete => "DELETE"
  }

  /** The chain of `method.equals(...)` tests (Http.java:90-108). */
  function ParseVerb(name: string): (r: Option<Verb>)
    ensures r.Some? <==> name in {"GET", "POST", "PUT", "DELETE"}
    ensures r.Some? ==> VerbName(r.value) == name
  {
    if name == "POST" then Some(Post)
    else if name == "PUT" then Some(Put)
    else if name == "GET" then Some(Get)
    else if name == "DELETE" then Some(Delete)
    else None
  }

  /** Naming a verb and parsing the name back gives the verb again. */
  lemma VerbNameRoundTrip(v: Verb)
    ensures ParseVerb(VerbName(v)) == Some(v)
  {
  }

  /** The OkHttp `Request` as far as it matters: method, URL, body (GET and
      DELETE have none) and the headers built so far. */
  datatype OutgoingRequest = OutgoingRequest(verb: Verb, url: string, body: Option<string>, headers: seq<Header>)

  /** `UnsupportedOperationException`, with its message. */
  datatype Failure = UnsupportedOperation(message: string)

  function BaseUrl(h: Http): string
  {
    "https://" + h.host + h.uri
  }

  /** Http.java:86-109: the request for `h`, or the exception. */
  function BuildRequest(h: Http): (r: Result<OutgoingRequest, Failure>)
    requires Valid(h)
    ensures r.Err? <==> h.verb !in {"GET", "POST", "PUT", "DELETE"}
    ensures r.Err? ==> r.error == UnsupportedOperation("Unsupported method: " + h.verb)
    ensures r.Ok? ==> VerbName(r.value.verb) == h.verb && r.value.headers == h.headers
    ensures r.Ok? && (r.value.verb == Post || r.value.verb == Put) ==>
              r.value.body == Some(QueryOf(h)) && r.value.url == BaseUrl(h)
    ensures r.Ok? && (r.value.verb == Get || r.value.verb == Delete) ==>
              r.value.body == None
              && (QueryOf(h) == "" ==> r.value.url == BaseUrl(h))
              && (QueryOf(h) != "" ==> r.value.url == BaseUrl(h) + "?" + QueryOf(h))
  {
    var url := BaseUrl(h);
    var q := QueryOf(h);
    match ParseVerb(h.verb)
    case None => Err(UnsupportedOperation("Unsupported method: " + h.verb))
    case Some(v) =>
      if v == Post || v == Put then
        Ok(OutgoingRequest(v, url, Some(q), h.headers))
      else
        Ok(OutgoingRequest(v, if |q| > 0 then url + "?" + q else url, None, h.headers))
  }

  /** The part of a URL before the first `?`. */
  function Target(url: string): string
  {
    if '?' in url then url[..IndexOf(url, '?')] else url
  }

  /** The part of a URL after the first `?`, empty when there is none. */
  function UrlQuery(url: string): string
  {
    if '?' in url then url[IndexOf(url, '?') + 1..] else ""
  }

  /** The query string as a receiver finds it: in the body when there is one,
      otherwise after the `?` of the URL. */
  function WireQuery(req: OutgoingRequest): string
  {
    if req.body.Some? then req.body.value else UrlQuery(req.url)
  }

  lemma SplitAtQuestionMark(base: string, q: string)
    requires '?' !in base
    ensures Target(base + "?" + q) == base && UrlQuery(base + "?" + q) == q
  {
    IndexOfAfterPrefix(base, '?', q);
  }

  /** Whatever the method, a receiver recovers exactly the query string that
      `createQueryString` produced, and the URL before any `?` is the base URL,
      as long as OkHttp sends host and path as they are (no `?` in either, and
      no `#`, which would start a fragment that is never sent). */
  lemma WireQueryRecoversQuery(h: Http)
    requires Valid(h) && BuildRequest(h).Ok?
    requires UrlKeeps(h.host, h.uri)
    ensures WireQuery(BuildRequest(h).value) == QueryOf(h)
    ensures Target(BuildRequest(h).value.url) == BaseUrl(h)
  {
    UrlKeepsHasNoDelimiters(h.host, h.uri);
    var base := BaseUrl(h);
    assert '?' !in "https://";
    assert '?' !in base;
    var q := QueryOf(h);
    var req := BuildRequest(h).value;
    if req.body.None? && q != "" {
      SplitAtQuestionMark(base, q);
    }
  }

  /** Http.java:85-127 end to end: a refused method yields the exception and no
      call at all; otherwise the built request is sent, unchanged, until the
      retry loop stops, and the last status is returned. */
  method ExecuteHttpRequest(h: Http, transport: (OutgoingRequest, nat) -> int, jitter: nat -> int)
    returns (result: Result<int, Failure>, sent: seq<OutgoingRequest>, sleeps: seq<int>)
    requires Valid(h) && ValidJitter(jitter)
    ensures result.Err? <==> h.verb !in {"GET", "POST", "PUT", "DELETE"}
    ensures result.Err? ==> result.error == UnsupportedOperation("Unsupported method: " + h.verb)
                            && sent == [] && sleeps == []
    ensures result.Ok? ==> BuildRequest(h).Ok?
                           && RetryOutcome(transport, BuildRequest(h).value, result.value, |sent|)
                           && (forall i :: 0 <= i < |sent| ==> sent[i] == BuildRequest(h).value)
                           && |sleeps| == |sent| - 1
    ensures forall k :: 0 <= k < |sleeps| ==> sleeps[k] == Backoff(k + 1, jitter(k))
    ensures forall k :: 0 <= k < |sleeps| ==> sleeps[k] <= MAX_BACKOFF_MS
  {
    var built := BuildRequest(h);
    if built.Err? {
      return Err(built.error), [], [];
    }
    var status;
    status, sent, sleeps := ExecuteRequest(built.value, transport, jitter);
    result := Ok(status);
  }
}

=== FILE: form_encoding.dfy ===
/** `java.net.URLEncoder.encode(s, "UTF-8")`, the legacy
    `application/x-www-form-urlencoded` encoder: ASCII letters, digits and
    `.`, `-`, `*`, `_` pass through, a space becomes `+`, and every other
    character becomes its UTF-8 bytes written `%XY` with upper-case hex digits.
    Java converts a whole run of characters needing encoding to bytes at once;
    since UTF-8 encodes each scalar value independently, encoding the run
    character by character yields the same bytes. */
module FormEncoding {
  import opened Unicode

  predicate IsAsciiAlphaNum(c: char)
  {
    ('a' <= c <= 'z') || ('A' <= c <= 'Z') || ('0' <= c <= '9')
  }

  /** The characters `URLEncoder` writes unchanged. */
  predicate PassesThrough(c: char)
  {
    IsAsciiAlphaNum(c) || c == '.' || c == '-' || c == '*' || c == '_'
  }

  /** An upper-case hexadecimal digit, as `URLEncoder` writes it. */
  function HexDigit(n: int): (c: char)
    requires 0 <= n < 16
    ensures IsHexDigit(c)
  {
    if n < 10 then ('0' as int + n) as char else ('A' as int + n - 10) as char
  }

  predicate IsHexDigit(c: char)
  {
    ('0' <= c <= '9') || ('A' <= c <= 'F')
  }

  /** One byte as `%XY`. */
  function PercentByte(b: Byte): (r: string)
    ensures |r| == 3 && r[0] == '%' && IsHexDigit(r[1]) && IsHexDigit(r[2])
  {
    ['%', HexDigit(b / 16), HexDigit(b % 16)]
  }

  /** A byte sequence as consecutive `%XY` triples. */
  function PercentBytes(bs: seq<Byte>): (r: string)
    ensures |r| == 3 * |bs|
    ensures forall i :: 0 <= i < |r| ==> r[i] == '%' || IsHexDigit(r[i])
  {
    if |bs| == 0 then [] else PercentByte(bs[0]) + PercentBytes(bs[1..])
  }

  /** The characters `URLEncoder` can write. */
  predicate FormAlphabet(c: char)
  {
    PassesThrough(c) || c == '+' || c == '%' || IsHexDigit(c)
  }

  /** What `URLEncoder` writes for one character: the character itself exactly
      when it passes through, otherwise an escape of three or more characters or
      the single `+`. */
  function FormEncodeChar(c: char): (r: string)
    ensures |r| == 1 <==> PassesThrough(c) || c == ' '
    ensures PassesThrough(c) <==> r == [c]
    ensures forall x :: x in r ==> FormAlphabet(x)
  {
    if PassesThrough(c) then [c]
    else if c == ' ' then "+"
    else PercentBytes(Utf8(c))
  }

  /** `URLEncoder.encode(s, "UTF-8")`: never shorter than its input, and
      written in the form alphabet only. */
  function FormEncode(s: string): (r: string)
    ensures |r| >= |s|
    ensures forall x :: x in r ==> FormAlphabet(x)
    ensures (forall i :: 0 <= i < |s| ==> PassesThrough(s[i])) ==> r == s
  {
    if |s| == 0 then "" else FormEncodeChar(s[0]) + FormEncode(s[1..])
  }

  /** A `+` in the output stands for a space and nothing else; a `*` stands for itself;
      every `%` starts a UTF-8 byte of a character outside the pass-through set. */
  lemma {:induction false} FormEncodeCharShape(c: char)
    ensures '+' in FormEncodeChar(c) <==> c == ' '
    ensures '*' in FormEncodeChar(c) <==> c == '*'
    ensures '%' in FormEncodeChar(c) <==> !PassesThrough(c) && c != ' '
  {
    if !PassesThrough(c) && c != ' ' {
      assert FormEncodeChar(c)[0] == '%';
    }
  }
}

=== FILE: key_order.dfy ===
/** The order `Collections.sort` puts parameter names in: `String.compareTo`,
    i.e. lexicographic comparison of UTF-16 code units, shorter prefix first.
    `Less` compares character by character through `Utf16Rank`, a number that
    orders characters the way their UTF-16 encodings compare; `LessIsCompareTo`
    proves the two agree. Also an insertion sort and the uniqueness of sorted
    enumerations, which is why the query string cannot depend on map order. */
module KeyOrder {
  import opened Unicode

  /** Java's `a.compareTo(b) < 0` on two code-unit sequences. */
  predicate UnitsLess(a: seq<int>, b: seq<int>)
  {
    if |a| == 0 then |b| > 0
    else if |b| == 0 then false
    else if a[0] != b[0] then a[0] < b[0]
    else UnitsLess(a[1..], b[1..])
  }

  /** Characters ranked so that comparing ranks is comparing UTF-16 encodings:
      surrogate pairs (supplementary characters) sort after U+D7FF and before U+E000. */
  function Utf16Rank(c: char): int
  {
    var cp := c as int;
    if cp < 0xD800 then cp
    else if cp < 0x1_0000 then cp + 0x10_0000
    else cp - 0x1_0000 + 0xD800
  }

  /** `a.compareTo(b) < 0`, character by character. */
  predicate Less(a: string, b: string)
  {
    if |a| == 0 then |b| > 0
    else if |b| == 0 then false
    else if a[0] != b[0] then Utf16Rank(a[0]) < Utf16Rank(b[0])
    else Less(a[1..], b[1..])
  }

  lemma RankInjective(c: char, d: char)
    requires c != d
    ensures Utf16Rank(c) != Utf16Rank(d)
  {
  }

  lemma UnitsLessCommonPrefix(p: seq<int>, x: seq<int>, y: seq<int>)
    ensures UnitsLess(p + x, p + y) == UnitsLess(x, y)
  {
    if |p| > 0 {
      assert (p + x)[0] == (p + y)[0];
      assert (p + x)[1..] == p[1..] + x;
      assert (p + y)[1..] == p[1..] + y;
      UnitsLessCommonPrefix(p[1..], x, y);
    } else {
      assert p + x == x && p + y == y;
    }
  }

  /** The first differing character decides the comparison of code units. */
  lemma UnitsLessFirstDifference(c: char, d: char, x: seq<int>, y: seq<int>)
    requires c != d
    ensures UnitsLess(Utf16(c) + x, Utf16(d) + y) == (Utf16Rank(c) < Utf16Rank(d))
  {
    var u, v := Utf16(c) + x, Utf16(d) + y;
    var cu, du := Utf16(c), Utf16(d);
    assert u[0] == cu[0] && v[0] == du[0];
    if cu[0] == du[0] {
      // Both are surrogate pairs with the same high surrogate.
      assert |cu| == 2 && |du| == 2;
      assert u[1..][0] == cu[1] && v[1..][0] == du[1];
      assert cu[1] != du[1];
    }
  }

  /** `Less` is `String.compareTo(a, b) < 0`. */
  lemma {:induction false} LessIsCompareTo(a: string, b: string)
    ensures Less(a, b) == UnitsLess(Utf16String(a), Utf16String(b))
  {
    if |a| > 0 && |b| > 0 {
      if a[0] == b[0] {
        LessIsCompareTo(a[1..], b[1..]);
        UnitsLessCommonPrefix(Utf16(a[0]), Utf16String(a[1..]), Utf16String(b[1..]));
      } else {
        UnitsLessFirstDifference(a[0], b[0], Utf16String(a[1..]), Utf16String(b[1..]));
      }
    }
  }

  lemma {:induction false} LessIrreflexive(a: string)
    ensures !Less(a, a)
  {
    if |a| > 0 {
      LessIrreflexive(a[1..]);
    }
  }

  lemma {:induction false} LessTransitive(a: string, b: string, c: string)
    requires Less(a, b) && Less(b, c)
    ensures Less(a, c)
  {
    if |a| > 0 && a[0] == b[0] && b[0] == c[0] {
      LessTransitive(a[1..], b[1..], c[1..]);
    }
  }

  /** Distinct strings are always ordered one way or the other. */
  lemma {:induction false} LessTotal(a: string, b: string)
    requires a != b
    ensures Less(a, b) || Less(b, a)
  {
    if |a| > 0 && |b| > 0 {
      if a[0] == b[0] {
        assert a == [a[0]] + a[1..] && b == [b[0]] + b[1..];
        LessTotal(a[1..], b[1..]);
      } else {
        RankInjective(a[0], b[0]);
      }
    }
  }

  lemma LessAsymmetric(a: string, b: string)
    requires Less(a, b)
    ensures !Less(b, a)
  {
    if Less(b, a) {
      LessTransitive(a, b, a);
      LessIrreflexive(a);
    }
  }

  ghost predicate StrictlySorted(s: seq<string>)
  {
    forall i, j :: 0 <= i < j < |s| ==> Less(s[i], s[j])
  }

  ghost predicate Distinct(s: seq<string>)
  {
    forall i, j :: 0 <= i < j < |s| ==> s[i] != s[j]
  }

  /** Inserts `k` into a sorted sequence that does not yet hold it. */
  function Insert(k: string, s: seq<string>): (r: seq<string>)
    requires StrictlySorted(s) && k !in s
    ensures StrictlySorted(r)
    ensures |r| == |s| + 1
    ensures forall x :: x in r <==> x == k || x in s
  {
    if |s| == 0 then [k]
    else if Less(k, s[0]) then
      assert forall j :: 0 <= j < |s| ==> Less(k, s[j]) by {
        forall j | 0 <= j < |s| ensures Less(k, s[j]) {
          if j > 0 { LessTransitive(k, s[0], s[j]); }
        }
      }
      [k] + s
    else
      LessTotal(k, s[0]);
      var t := Insert(k, s[1..]);
      assert forall x :: x in t ==> Less(s[0], x);
      [s[0]] + t
  }

  /** `Collections.sort` on a list of distinct strings: the same elements, ascending. */
  function Sort(xs: seq<string>): (r: seq<string>)
    requires Distinct(xs)
    ensures StrictlySorted(r)
    ensures |r| == |xs|
    ensures forall x :: x in r <==> x in xs
  {
    if |xs| == 0 then []
    else
      assert xs[0] !in xs[1..];
      Insert(xs[0], Sort(xs[1..]))
  }

  /** Two ascending sequences with the same elements are the same sequence:
      a sorted enumeration of a set is unique. */
  lemma {:induction false} SortedUnique(a: seq<string>, b: seq<string>)
    requires StrictlySorted(a) && StrictlySorted(b)
    requires forall x :: x in a <==> x in b
    ensures a == b
  {
    assert |a| > 0 ==> a[0] in b;
    assert |b| > 0 ==> b[0] in a;
    if |a| > 0 && |b| > 0 {
      assert a[0] in b && b[0] in a;
      if a[0] != b[0] {
        var i :| 0 <= i < |b| && b[i] == a[0];
        var j :| 0 <= j < |a| && a[j] == b[0];
        assert Less(b[0], a[0]);
        assert Less(a[0], b[0]);
        LessAsymmetric(a[0], b[0]);
      }
      forall x ensures x in a[1..] <==> x in b[1..] {
        if x in a[1..] {
          var i :| 1 <= i < |a| && a[i] == x;
          assert Less(a[0], x);
          LessIrreflexive(a[0]);
          assert x in b;
          var k :| 0 <= k < |b| && b[k] == x;
          assert k != 0;
          assert b[1..][k - 1] == x;
        }
        if x in b[1..] {
          var i :| 1 <= i < |b| && b[i] == x;
          assert Less(b[0], x);
          LessIrreflexive(b[0]);
          assert x in a;
          var k :| 0 <= k < |a| && a[k] == x;
          assert k != 0;
          assert a[1..][k - 1] == x;
        }
      }
      SortedUnique(a[1..], b[1..]);
      assert a == [a[0]] + a[1..] && b == [b[0]] + b[1..];
    }
  }

  /** Sorting two enumerations of the same set of distinct names yields the same list. */
  lemma SortOrderIndependent(xs: seq<string>, ys: seq<string>)
    requires Distinct(xs) && Distinct(ys)
    requires forall x :: x in xs <==> x in ys
    ensures Sort(xs) == Sort(ys)
  {
    SortedUnique(Sort(xs), Sort(ys));
  }
}

=== FILE: query_decoder.dfy ===
/** The inverse of `createQueryString`: percent-decoding a component and
    parsing `name=value&...` back into its pairs. Nothing in the client decodes;
    the decoder exists to show that the encoding loses nothing. Names and
    values here are sequences of Unicode scalar values, so Java strings holding
    an unpaired surrogate are outside the model; for all other strings the
    query string that `canonRequest` signs determines the parameters exactly,
    and two different parameter maps never share a signature input. (With an
    unpaired surrogate they can: `URLEncoder` turns it into `?`, so
    `{"\uD800": "x"}` and `{"?": "x"}` both give `%3F=x`.) */
module QueryDecoder {
  import opened Results
  import opened Strings
  import opened Unicode
  import opened FormEncoding
  import opened KeyOrder
  import opened QueryEncoder

  /** The value of an upper-case hexadecimal digit, or -1. */
  function HexValue(c: char): (v: int)
    ensures -1 <= v < 16
    ensures v >= 0 <==> IsHexDigit(c)
  {
    if '0' <= c <= '9' then c as int - '0' as int
    else if 'A' <= c <= 'F' then c as int - 'A' as int + 10
    else -1
  }

  lemma HexValueOfDigit(n: int)
    requires 0 <= n < 16
    ensures HexValue(HexDigit(n)) == n
  {
  }

  /** Reads `count` consecutive `%XY` triples as bytes. */
  function ReadBytes(s: string, count: nat): (r: Option<seq<Byte>>)
    ensures r.Some? ==> |r.value| == count
  {
    if count == 0 then Some([])
    else if |s| < 3 || s[0] != '%' || HexValue(s[1]) < 0 || HexValue(s[2]) < 0 then None
    else
      match ReadBytes(s[3..], count - 1)
      case None => None
      case Some(rest) => Some([HexValue(s[1]) * 16 + HexValue(s[2])] + rest)
  }

  lemma PercentByteReads(b: Byte)
    ensures HexValue(PercentByte(b)[1]) * 16 + HexValue(PercentByte(b)[2]) == b
  {
    HexValueOfDigit(b / 16);
    HexValueOfDigit(b % 16);
  }

  lemma {:induction false} ReadBytesOfPercentBytes(bs: seq<Byte>)
    ensures ReadBytes(PercentBytes(bs), |bs|) == Some(bs)
  {
    if |bs| > 0 {
      var s := PercentBytes(bs);
      assert s == PercentByte(bs[0]) + PercentBytes(bs[1..]);
      assert s[3..] == PercentBytes(bs[1..]);
      PercentByteReads(bs[0]);
      ReadBytesOfPercentBytes(bs[1..]);
      assert [bs[0]] + bs[1..] == bs;
    }
  }

  /** Decodes one `%XY...` run of UTF-8 bytes at the start of `s` (which starts
      with `%`) into a character, with the number of characters it took.
      Only the shortest, valid encoding of a scalar value is accepted. */
  function DecodeEscape(s: string): (r: Option<(char, nat)>)
    requires |s| > 0 && s[0] == '%'
    ensures r.Some? ==> 3 <= r.value.1 <= |s|
    ensures r.Some? ==> s[..r.value.1] == PercentBytes(Utf8(r.value.0))
  {
    if |s| < 3 || HexValue(s[1]) < 0 || HexValue(s[2]) < 0 then None
    else
      var n := Utf8Length(HexValue(s[1]) * 16 + HexValue(s[2]));
      if |s| < 3 * n then None
      else
        match ReadBytes(s[..3 * n], n)
        case None => None
        case Some(bs) =>
          var cp := Utf8Decode(bs);
          if !(0 <= cp < 0xD800 || 0xE000 <= cp < 0x11_0000) then None
          else if Utf8(cp as char) != bs then None
          else
            ReadBytesOfPercentBytes(bs);
            ReadBytesInjective(s[..3 * n], PercentBytes(bs), n);
            Some((cp as char, 3 * n))
  }

  /** The text read as `count` triples is the only one that reads so. */
  lemma {:induction false} ReadBytesInjective(s: string, t: string, count: nat)
    requires |s| == 3 * count && |t| == 3 * count
    requires ReadBytes(s, count).Some? && ReadBytes(s, count) == ReadBytes(t, count)
    ensures s == t
  {
    if count > 0 {
      var a, b := ReadBytes(s, count).value, ReadBytes(t, count).value;
      assert s[0] == '%' && HexValue(s[1]) >= 0 && HexValue(s[2]) >= 0;
      assert t[0] == '%' && HexValue(t[1]) >= 0 && HexValue(t[2]) >= 0;
      assert a == [HexValue(s[1]) * 16 + HexValue(s[2])] + ReadBytes(s[3..], count - 1).value;
      assert b == [HexValue(t[1]) * 16 + HexValue(t[2])] + ReadBytes(t[3..], count - 1).value;
      assert a[0] == b[0] && a[1..] == b[1..];
      DigitPair(HexValue(s[1]), HexValue(s[2]), HexValue(t[1]), HexValue(t[2]));
      HexValueInjective(s[1], t[1]);
      HexValueInjective(s[2], t[2]);
      ReadBytesInjective(s[3..], t[3..], count - 1);
      assert s == s[..3] + s[3..] && t == t[..3] + t[3..];
    }
  }

  lemma DigitPair(hi1: int, lo1: int, hi2: int, lo2: int)
    requires 0 <= hi1 < 16 && 0 <= lo1 < 16 && 0 <= hi2 < 16 && 0 <= lo2 < 16
    requires hi1 * 16 + lo1 == hi2 * 16 + lo2
    ensures hi1 == hi2 && lo1 == lo2
  {
  }

  lemma HexValueInjective(c: char, d: char)
    requires HexValue(c) >= 0 && HexValue(c) == HexValue(d)
    ensures c == d
  {
  }

  /** Percent-decoding: `%XY` runs become the characters whose UTF-8 bytes they
      spell, any other character stands for itself. */
  function PercentDecode(s: string): Option<string>
    decreases |s|
  {
    if |s| == 0 then Some("")
    else if s[0] != '%' then
      match PercentDecode(s[1..])
      case None => None
      case Some(rest) => Some([s[0]] + rest)
    else
      match DecodeEscape(s)
      case None => None
      case Some((c, used)) =>
        match PercentDecode(s[used..])
        case None => None
        case Some(rest) => Some([c] + rest)
  }

  /** A character's own escape decodes to it. */
  lemma DecodeEscapeOfChar(c: char, z: string)
    ensures PercentBytes(Utf8(c)) + z != [] && (PercentBytes(Utf8(c)) + z)[0] == '%'
    ensures DecodeEscape(PercentBytes(Utf8(c)) + z) == Some((c, 3 * |Utf8(c)|))
  {
    var bs := Utf8(c);
    var s := PercentBytes(bs) + z;
    assert PercentBytes(bs) == PercentByte(bs[0]) + PercentBytes(bs[1..]);
    assert s[1] == PercentByte(bs[0])[1] && s[2] == PercentByte(bs[0])[2];
    PercentByteReads(bs[0]);
    Utf8LeadLength(c);
    assert s[..3 * |bs|] == PercentBytes(bs);
    ReadBytesOfPercentBytes(bs);
    Utf8RoundTrip(c);
  }

  /** Decoding undoes encoding: `PercentDecode(PercentEncode(s)) == Some(s)`. */
  lemma {:induction false} PercentDecodeEncode(s: string)
    ensures PercentDecode(PercentEncode(s)) == Some(s)
  {
    if |s| > 0 {
      var c, tail := s[0], s[1..];
      PercentDecodeEncode(tail);
      DecodeOneMore(c, PercentEncode(tail), tail);
      assert PercentEncode(s) == PercentEncodeChar(c) + PercentEncode(tail);
      assert [c] + tail == s;
    }
  }

  /** One more encoded character in front decodes to that character in front. */
  lemma DecodeOneMore(c: char, tail: string, rest: string)
    requires PercentDecode(tail) == Some(rest)
    ensures PercentDecode(PercentEncodeChar(c) + tail) == Some([c] + rest)
  {
    var e := PercentEncodeChar(c) + tail;
    if Unreserved(c) {
      assert e[0] == c && e[1..] == tail;
    } else {
      DecodeEscapeOfChar(c, tail);
      assert e[3 * |Utf8(c)|..] == tail;
    }
  }

  /** Different components have different encodings. */
  lemma PercentEncodeInjective(s: string, t: string)
    requires PercentEncode(s) == PercentEncode(t)
    ensures s == t
  {
    PercentDecodeEncode(s);
    PercentDecodeEncode(t);
  }

  /** Parses `name=value` pieces into decoded pairs. */
  function DecodePairs(pieces: seq<string>): (r: Option<seq<(string, string)>>)
    ensures r.Some? ==> |r.value| == |pieces|
  {
    if |pieces| == 0 then Some([])
    else
      var halves := Split(pieces[0], '=');
      if |halves| != 2 then None
      else
        var name, value, rest := PercentDecode(halves[0]), PercentDecode(halves[1]), DecodePairs(pieces[1..]);
        if name.Some? && value.Some? && rest.Some? then Some([(name.value, value.value)] + rest.value)
        else None
  }

  /** Parses a query string into its pairs, in order. */
  function ParseQuery(q: string): Option<seq<(string, string)>>
  {
    if q == "" then Some([]) else DecodePairs(Split(q, '&'))
  }

  /** The pairs of a parameter map, in the order of `keys`. */
  function PairsOf(params: map<string, string>, keys: seq<string>): seq<(string, string)>
    requires forall i :: 0 <= i < |keys| ==> keys[i] in params
  {
    seq(|keys|, i requires 0 <= i < |keys| => (keys[i], params[keys[i]]))
  }

  /** One encoded `name=value` piece decodes to its name and value. */
  lemma DecodePiece(piece: string, name: string, value: string)
    requires Split(piece, '=') == [EncodeComponent(name), EncodeComponent(value)]
    ensures |Split(piece, '=')| == 2
    ensures PercentDecode(Split(piece, '=')[0]) == Some(name)
    ensures PercentDecode(Split(piece, '=')[1]) == Some(value)
  {
    PercentDecodeEncode(name);
    PercentDecodeEncode(value);
  }

  /** A piece that cuts into two halves decoding to `name` and `value`. */
  predicate DecodesTo(piece: string, name: string, value: string)
  {
    var halves := Split(piece, '=');
    |halves| == 2 && PercentDecode(halves[0]) == Some(name) && PercentDecode(halves[1]) == Some(value)
  }

  lemma {:induction false} DecodePairsOfEncoded(params: map<string, string>, keys: seq<string>, pieces: seq<string>)
    requires forall i :: 0 <= i < |keys| ==> keys[i] in params
    requires |pieces| == |keys|
    requires forall i :: 0 <= i < |pieces| ==> DecodesTo(pieces[i], keys[i], params[keys[i]])
    ensures DecodePairs(pieces) == Some(PairsOf(params, keys))
  {
    if |pieces| > 0 {
      var k := keys[0];
      assert DecodesTo(pieces[0], k, params[k]);
      var ks, ps := keys[1..], pieces[1..];
      forall i | 0 <= i < |ps|
        ensures DecodesTo(ps[i], ks[i], params[ks[i]])
      {
        assert ps[i] == pieces[i + 1] && ks[i] == keys[i + 1];
      }
      DecodePairsOfEncoded(params, ks, ps);
      assert PairsOf(params, keys) == [(k, params[k])] + PairsOf(params, ks);
    }
  }

  lemma PiecesDecode(params: map<string, string>, keys: seq<string>, pieces: seq<string>)
    requires forall i :: 0 <= i < |keys| ==> keys[i] in params
    requires |pieces| == |keys|
    requires forall i :: 0 <= i < |pieces| ==>
               Split(pieces[i], '=') == [EncodeComponent(keys[i]), EncodeComponent(params[keys[i]])]
    ensures forall i :: 0 <= i < |pieces| ==> DecodesTo(pieces[i], keys[i], params[keys[i]])
  {
    forall i | 0 <= i < |pieces|
      ensures DecodesTo(pieces[i], keys[i], params[keys[i]])
    {
      DecodePiece(pieces[i], keys[i], params[keys[i]]);
    }
  }

  /** Parsing the query string gives back every parameter, each once, in
      ascending name order, with its value. */
  lemma ParseQueryString(params: map<string, string>, order: seq<string>)
    requires Enumerates(order, params)
    ensures ParseQuery(QueryString(params, order)) == Some(PairsOf(params, Sort(order)))
  {
    EnumerationSize(order, params);
    if |params| == 0 {
      assert QueryString(params, order) == "";
      assert PairsOf(params, Sort(order)) == [];
    } else {
      ParseNonEmptyQueryString(params, order);
    }
  }

  lemma ParseNonEmptyQueryString(params: map<string, string>, order: seq<string>)
    requires Enumerates(order, params) && |params| > 0
    ensures ParseQuery(QueryString(params, order)) == Some(PairsOf(params, Sort(order)))
  {
    var q := QueryString(params, order);
    QueryStringStructure(params, order);
    var keys := Sort(order);
    var pieces := Split(q, '&');
    PiecesDecode(params, keys, pieces);
    DecodePairsOfEncoded(params, keys, pieces);
    ParseOfPieces(q, pieces, PairsOf(params, keys));
  }

  lemma ParseOfPieces(q: string, pieces: seq<string>, pairs: seq<(string, string)>)
    requires q != "" && Split(q, '&') == pieces && DecodePairs(pieces) == Some(pairs)
    ensures ParseQuery(q) == Some(pairs)
  {
  }

  /** Two maps listed by their sorted keys in the same way are the same map. */
  lemma PairsOfDetermineMap(p1: map<string, string>, k1: seq<string>, p2: map<string, string>, k2: seq<string>)
    requires forall x :: x in k1 <==> x in p1
    requires forall x :: x in k2 <==> x in p2
    requires forall i :: 0 <= i < |k1| ==> k1[i] in p1
    requires forall i :: 0 <= i < |k2| ==> k2[i] in p2
    requires PairsOf(p1, k1) == PairsOf(p2, k2)
    ensures p1 == p2
  {
    assert |k1| == |PairsOf(p1, k1)| == |k2|;
    forall i | 0 <= i < |k1|
      ensures k1[i] == k2[i] && p1[k1[i]] == p2[k2[i]]
    {
      assert PairsOf(p1, k1)[i] == PairsOf(p2, k2)[i];
    }
    assert k1 == k2;
    forall x | x in p1 ensures x in p2 && p1[x] == p2[x] {
      var i :| 0 <= i < |k1| && k1[i] == x;
    }
  }

  /** The same, for the keys in ascending order. */
  lemma SortedPairsDetermineMap(p1: map<string, string>, o1: seq<string>, p2: map<string, string>, o2: seq<string>)
    requires Enumerates(o1, p1) && Enumerates(o2, p2)
    requires PairsOf(p1, Sort(o1)) == PairsOf(p2, Sort(o2))
    ensures p1 == p2
  {
    PairsOfDetermineMap(p1, Sort(o1), p2, Sort(o2));
  }

  /** The query string determines the parameter map: equal query strings come
      from equal maps, whatever the iteration orders. This holds for names and
      values without unpaired surrogates, which are all a Dafny `string` can hold. */
  lemma QueryStringInjective(p1: map<string, string>, o1: seq<string>, p2: map<string, string>, o2: seq<string>)
    requires Enumerates(o1, p1) && Enumerates(o2, p2)
    requires QueryString(p1, o1) == QueryString(p2, o2)
    ensures p1 == p2
  {
    ParseQueryString(p1, o1);
    ParseQueryString(p2, o2);
    SortedPairsDetermineMap(p1, o1, p2, o2);
  }
}

=== FILE: query_encoder.dfy ===
/** `createQueryString` (Http.java:196-222): every parameter name and value is
    form-encoded and then patched with three rewrites (`+` to `%20`, `*` to
    `%2A`, `%7E` to `~`); the pairs `name=value` are emitted in ascending name
    order and joined with `&`.

    The patched encoder is proved equal to `PercentEncode`, an independent
    definition of percent-encoding after sections 2.1 and 2.3 of RFC 3986:
    unreserved characters (ALPHA, DIGIT, `-`, `.`, `_`, `~`) are kept and every
    other character is written as its UTF-8 bytes in `%XY` form. */
module QueryEncoder {
  import opened Strings
  import opened Unicode
  import opened FormEncoding
  import opened KeyOrder

  /** The unreserved characters of section 2.3 of RFC 3986. */
  predicate Unreserved(c: char)
  {
    IsAsciiAlphaNum(c) || c == '-' || c == '.' || c == '_' || c == '~'
  }

  function PercentEncodeChar(c: char): string
  {
    if Unreserved(c) then [c] else PercentBytes(Utf8(c))
  }

  /** Reference percent-encoding: each character on its own. */
  function PercentEncode(s: string): string
  {
    if |s| == 0 then "" else PercentEncodeChar(s[0]) + PercentEncode(s[1..])
  }

  /** Characters that can appear in a percent-encoded component. */
  predicate EncodedAlphabet(c: char)
  {
    Unreserved(c) || c == '%' || IsHexDigit(c)
  }

  lemma {:induction false} PercentEncodeAlphabet(s: string)
    ensures forall i :: 0 <= i < |PercentEncode(s)| ==> EncodedAlphabet(PercentEncode(s)[i])
  {
    if |s| > 0 {
      PercentEncodeAlphabet(s[1..]);
      var head, tail := PercentEncodeChar(s[0]), PercentEncode(s[1..]);
      assert forall i :: 0 <= i < |head| ==> EncodedAlphabet(head[i]);
      forall i | 0 <= i < |head + tail| ensures EncodedAlphabet((head + tail)[i]) {
        if i >= |head| {
          assert (head + tail)[i] == tail[i - |head|];
        }
      }
    }
  }

  lemma AlphabetMembers(t: string)
    requires forall i :: 0 <= i < |t| ==> EncodedAlphabet(t[i])
    ensures forall c :: c in t ==> EncodedAlphabet(c)
    ensures '+' !in t && '*' !in t && '&' !in t && '=' !in t
  {
    forall c | c in t ensures EncodedAlphabet(c) {
      var i :| 0 <= i < |t| && t[i] == c;
    }
  }

  // The three rewrites of Http.java:210-212 (and 215-217), applied in order.

  function PlusRewrite(s: string): string { ReplaceAll(s, "+", "%20") }
  function StarRewrite(s: string): string { ReplaceAll(s, "*", "%2A") }
  function TildeRewrite(s: string): string { ReplaceAll(s, "%7E", "~") }

  /** After the three rewrites no `+` and no `*` is left, whatever the input. */
  function Patch(s: string): (r: string)
    ensures '+' !in r && '*' !in r
    ensures '+' !in s && '*' !in s && '%' !in s ==> r == s
  {
    ReplaceCharRemoves(s, '+', "%20");
    ReplaceCharRemoves(PlusRewrite(s), '*', "%2A");
    ReplaceKeepsAbsent(PlusRewrite(s), "*", "%2A", '+');
    ReplaceKeepsAbsent(StarRewrite(PlusRewrite(s)), "%7E", "~", '+');
    ReplaceKeepsAbsent(StarRewrite(PlusRewrite(s)), "%7E", "~", '*');
    ReplaceWithoutTarget(s, "+", "%20");
    ReplaceWithoutTarget(PlusRewrite(s), "*", "%2A");
    ReplaceWithoutTarget(StarRewrite(PlusRewrite(s)), "%7E", "~");
    TildeRewrite(StarRewrite(PlusRewrite(s)))
  }

  lemma TildeSkipsChar(c: char, z: string)
    requires c != '%'
    ensures TildeRewrite([c] + z) == [c] + TildeRewrite(z)
  {
    assert ([c] + z)[0] == c && "%7E"[0] == '%';
    assert !("%7E" <= [c] + z);
    assert ([c] + z)[1..] == z;
  }

  /** A `%XY` triple is rewritten on its own: the pattern never straddles it. */
  lemma TildeByte(b: Byte, z: string)
    ensures TildeRewrite(PercentByte(b) + z)
         == (if b == 0x7E then "~" else PercentByte(b)) + TildeRewrite(z)
  {
    if b == 0x7E {
      TildeByteMatches(z);
    } else {
      TildeByteSkipped(b, z);
    }
  }

  lemma TildeByteMatches(z: string)
    ensures TildeRewrite(PercentByte(0x7E) + z) == "~" + TildeRewrite(z)
  {
    var s := PercentByte(0x7E) + z;
    assert PercentByte(0x7E) == "%7E";
    assert s[..3] == "%7E" && s[3..] == z;
  }

  lemma TildeByteSkipped(b: Byte, z: string)
    requires b != 0x7E
    ensures TildeRewrite(PercentByte(b) + z) == PercentByte(b) + TildeRewrite(z)
  {
    var t := PercentByte(b);
    var s := t + z;
    assert s[..3] == t;
    assert t != "%7E";
    assert !("%7E" <= s);
    assert s[1..] == [t[1]] + ([t[2]] + z);
    TildeSkipsChar(t[1], [t[2]] + z);
    TildeSkipsChar(t[2], z);
  }

  lemma TildeByteThenSplit(b: Byte, r: string, z: string)
    requires TildeRewrite(r + z) == TildeRewrite(r) + TildeRewrite(z)
    ensures TildeRewrite(PercentByte(b) + r + z) == TildeRewrite(PercentByte(b) + r) + TildeRewrite(z)
  {
    var t := PercentByte(b);
    var head := if b == 0x7E then "~" else t;
    TildeByte(b, r + z);
    TildeByte(b, r);
    calc {
      TildeRewrite(t + r + z);
      { assert t + r + z == t + (r + z); }
      TildeRewrite(t + (r + z));
      head + TildeRewrite(r + z);
      head + (TildeRewrite(r) + TildeRewrite(z));
      { assert head + (TildeRewrite(r) + TildeRewrite(z)) == (head + TildeRewrite(r)) + TildeRewrite(z); }
      TildeRewrite(t + r) + TildeRewrite(z);
    }
  }

  lemma {:induction false} TildeBytes(bs: seq<Byte>, z: string)
    ensures TildeRewrite(PercentBytes(bs) + z) == TildeRewrite(PercentBytes(bs)) + TildeRewrite(z)
  {
    if |bs| == 0 {
      assert PercentBytes(bs) + z == z;
    } else {
      TildeBytes(bs[1..], z);
      TildeByteThenSplit(bs[0], PercentBytes(bs[1..]), z);
    }
  }

  lemma {:induction false} TildeBytesUnchanged(bs: seq<Byte>)
    requires 0x7E !in bs
    ensures TildeRewrite(PercentBytes(bs)) == PercentBytes(bs)
  {
    if |bs| > 0 {
      TildeByte(bs[0], PercentBytes(bs[1..]));
      TildeBytesUnchanged(bs[1..]);
    }
  }

  /** The rewrites turn one form-encoded character into its RFC 3986 encoding. */
  lemma PatchChar(c: char)
    ensures Patch(FormEncodeChar(c)) == PercentEncodeChar(c)
  {
    var e := FormEncodeChar(c);
    if PassesThrough(c) && c != '*' {
      ReplaceCharAbsent(e, '+', "%20");
      ReplaceCharAbsent(e, '*', "%2A");
      TildeSkipsChar(c, "");
      assert [c] + "" == [c];
    } else if c == '*' {
      ReplaceCharAbsent(e, '+', "%20");
      assert StarRewrite(e) == "%2A" + StarRewrite("");
      assert StarRewrite(e) == PercentBytes([0x2A]);
      TildeBytesUnchanged([0x2A]);
    } else if c == ' ' {
      assert PlusRewrite(e) == "%20" + PlusRewrite("");
      assert PlusRewrite(e) == PercentBytes([0x20]);
      ReplaceCharAbsent(PlusRewrite(e), '*', "%2A");
      TildeBytesUnchanged([0x20]);
    } else {
      assert e == PercentBytes(Utf8(c));
      assert '+' !in e && '*' !in e;
      ReplaceCharAbsent(e, '+', "%20");
      ReplaceCharAbsent(e, '*', "%2A");
      if c == '~' {
        TildeByte(0x7E, "");
        assert PercentBytes(Utf8(c)) == PercentByte(0x7E) + "";
      } else {
        if 0x7E in Utf8(c) {
          var i :| 0 <= i < |Utf8(c)| && Utf8(c)[i] == 0x7E;
          Utf8AsciiByte(c, i, 0x7E);
        }
        TildeBytesUnchanged(Utf8(c));
      }
    }
  }

  /** The rewrites act on each encoded character separately. */
  lemma PatchDistributes(c: char, rest: string)
    ensures Patch(FormEncodeChar(c) + rest) == Patch(FormEncodeChar(c)) + Patch(rest)
  {
    var e := FormEncodeChar(c);
    ReplaceCharDistributes(e, rest, '+', "%20");
    ReplaceCharDistributes(PlusRewrite(e), PlusRewrite(rest), '*', "%2A");
    var r2 := StarRewrite(PlusRewrite(rest));
    assert StarRewrite(PlusRewrite(e + rest)) == StarRewrite(PlusRewrite(e)) + r2;
    if PassesThrough(c) && c != '*' {
      PatchPassingChar(c, r2);
    } else {
      PatchEscapedChar(c, r2);
    }
  }

  lemma PatchPassingChar(c: char, r2: string)
    requires PassesThrough(c) && c != '*'
    ensures TildeRewrite(StarRewrite(PlusRewrite(FormEncodeChar(c))) + r2)
         == TildeRewrite(StarRewrite(PlusRewrite(FormEncodeChar(c)))) + TildeRewrite(r2)
  {
    var e := FormEncodeChar(c);
    assert e == [c];
    ReplaceCharAbsent(e, '+', "%20");
    ReplaceCharAbsent(e, '*', "%2A");
    TildeSkipsChar(c, r2);
    TildeSkipsChar(c, "");
    assert [c] + "" == [c];
  }

  lemma PatchEscapedChar(c: char, r2: string)
    requires !(PassesThrough(c) && c != '*')
    ensures TildeRewrite(StarRewrite(PlusRewrite(FormEncodeChar(c))) + r2)
         == TildeRewrite(StarRewrite(PlusRewrite(FormEncodeChar(c)))) + TildeRewrite(r2)
  {
    var bs := if c == '*' then [0x2A] else if c == ' ' then [0x20] else Utf8(c);
    if c == '*' {
      StarBecomesEscape();
    } else if c == ' ' {
      SpaceBecomesEscape();
    } else {
      EscapeSurvivesRewrites(c);
    }
    TildeBytes(bs, r2);
  }

  /** After the first two rewrites, `*` is the escape of its byte. */
  lemma StarBecomesEscape()
    ensures StarRewrite(PlusRewrite(FormEncodeChar('*'))) == PercentBytes([0x2A])
  {
    var e := FormEncodeChar('*');
    assert e == "*";
    ReplaceCharAbsent(e, '+', "%20");
    assert StarRewrite(e) == "%2A" + StarRewrite("");
  }

  /** After the first two rewrites, the `+` for a space is the escape of its byte. */
  lemma SpaceBecomesEscape()
    ensures StarRewrite(PlusRewrite(FormEncodeChar(' '))) == PercentBytes([0x20])
  {
    var e := FormEncodeChar(' ');
    assert e == "+";
    assert PlusRewrite(e) == "%20" + PlusRewrite("");
    ReplaceCharAbsent(PlusRewrite(e), '*', "%2A");
  }

  /** An escape that `URLEncoder` wrote already is left alone by the first two rewrites. */
  lemma EscapeSurvivesRewrites(c: char)
    requires !PassesThrough(c) && c != ' '
    ensures StarRewrite(PlusRewrite(FormEncodeChar(c))) == PercentBytes(Utf8(c))
  {
    var e := FormEncodeChar(c);
    assert e == PercentBytes(Utf8(c));
    ReplaceCharAbsent(e, '+', "%20");
    ReplaceCharAbsent(e, '*', "%2A");
  }

  /** The patched form encoding is RFC 3986 percent-encoding. */
  lemma {:induction false} PatchedFormEncodeIsPercentEncode(s: string)
    ensures Patch(FormEncode(s)) == PercentEncode(s)
  {
    if |s| == 0 {
      assert PlusRewrite("") == "" && StarRewrite("") == "" && TildeRewrite("") == "";
    } else {
      PatchDistributes(s[0], FormEncode(s[1..]));
      PatchChar(s[0]);
      PatchedFormEncodeIsPercentEncode(s[1..]);
    }
  }

  /** One parameter name or value as it appears in the query string (Http.java:208-217). */
  function EncodeComponent(s: string): (r: string)
    ensures r == PercentEncode(s)
    ensures forall c :: c in r ==> EncodedAlphabet(c)
    ensures '+' !in r && '*' !in r && '&' !in r && '=' !in r
  {
    PatchedFormEncodeIsPercentEncode(s);
    PercentEncodeAlphabet(s);
    AlphabetMembers(PercentEncode(s));
    Patch(FormEncode(s))
  }

  /** `HashMap.keySet()` iteration: every name of the map exactly once, in some order. */
  ghost predicate Enumerates(order: seq<string>, params: map<string, string>)
  {
    Distinct(order) && forall k :: k in order <==> k in params
  }

  lemma {:induction false} EnumerationSize(order: seq<string>, params: map<string, string>)
    requires Enumerates(order, params)
    ensures |order| == |params|
  {
    if |order| == 0 {
      assert params.Keys == {};
    } else {
      var k := order[0];
      var rest := params - {k};
      assert k !in order[1..];
      forall x ensures x in order[1..] <==> x in rest {
        if x in order[1..] {
          var i :| 1 <= i < |order| && order[i] == x;
        }
        if x in rest {
          assert x in order && x != k;
          var i :| 0 <= i < |order| && order[i] == x;
          assert order[1..][i - 1] == x;
        }
      }
      EnumerationSize(order[1..], rest);
      assert rest.Keys == params.Keys - {k};
    }
  }

  /** The `name=value` pair of each name, in the order given. */
  function Pairs(params: map<string, string>, keys: seq<string>): (r: seq<string>)
    requires forall i :: 0 <= i < |keys| ==> keys[i] in params
    ensures |r| == |keys|
  {
    seq(|keys|, i requires 0 <= i < |keys| => EncodeComponent(keys[i]) + "=" + EncodeComponent(params[keys[i]]))
  }

  /** A pair cut at its `=` gives back the encoded name and value. */
  lemma PairsSplit(params: map<string, string>, keys: seq<string>)
    requires forall i :: 0 <= i < |keys| ==> keys[i] in params
    ensures forall i :: 0 <= i < |keys| ==>
              Split(EncodeComponent(keys[i]) + "=" + EncodeComponent(params[keys[i]]), '=')
              == [EncodeComponent(keys[i]), EncodeComponent(params[keys[i]])]
  {
    forall i | 0 <= i < |keys|
      ensures Split(EncodeComponent(keys[i]) + "=" + EncodeComponent(params[keys[i]]), '=')
              == [EncodeComponent(keys[i]), EncodeComponent(params[keys[i]])]
    {
      var name, value := EncodeComponent(keys[i]), EncodeComponent(params[keys[i]]);
      assert Join([name, value], "=") == name + "=" + value;
      SplitJoin([name, value], '=');
    }
  }

  /** `createQueryString` for a map whose key set is iterated in the order `order`. */
  function QueryString(params: map<string, string>, order: seq<string>): (q: string)
    requires Enumerates(order, params)
    ensures q == "" <==> |params| == 0
    ensures '\n' !in q && '?' !in q
  {
    var keys := Sort(order);
    var parts := Pairs(params, keys);
    EnumerationSize(order, params);
    PairsShape(params, keys);
    JoinNoChar(parts, "&", '\n');
    JoinNoChar(parts, "&", '?');
    Join(parts, "&")
  }

  lemma PairShape(name: string, value: string)
    requires forall c :: c in name ==> EncodedAlphabet(c)
    requires forall c :: c in value ==> EncodedAlphabet(c)
    ensures var p := name + "=" + value; '\n' !in p && '?' !in p && '&' !in p && p != ""
  {
  }

  lemma PairsShape(params: map<string, string>, keys: seq<string>)
    requires forall i :: 0 <= i < |keys| ==> keys[i] in params
    ensures forall i :: 0 <= i < |keys| ==>
      var p := Pairs(params, keys)[i];
      '\n' !in p && '?' !in p && '&' !in p && p != ""
  {
    forall i | 0 <= i < |keys|
      ensures var p := Pairs(params, keys)[i]; '\n' !in p && '?' !in p && '&' !in p && p != ""
    {
      PairShape(EncodeComponent(keys[i]), EncodeComponent(params[keys[i]]));
    }
  }

  /** The query string does not depend on the iteration order of the map. */
  lemma QueryStringOrderIndependent(params: map<string, string>, order1: seq<string>, order2: seq<string>)
    requires Enumerates(order1, params) && Enumerates(order2, params)
    ensures QueryString(params, order1) == QueryString(params, order2)
  {
    SortOrderIndependent(order1, order2);
  }

  /** The query string is exactly one `name=value` piece per parameter, separated by
      `&` with nothing after the last, names ascending in `String.compareTo` order,
      and each piece splits at `=` into the encoded name and the encoded value. */
  lemma QueryStringStructure(params: map<string, string>, order: seq<string>)
    requires Enumerates(order, params) && |params| > 0
    ensures var keys := Sort(order);
            var pieces := Split(QueryString(params, order), '&');
            && StrictlySorted(keys)
            && (forall k :: k in keys <==> k in params)
            && |pieces| == |keys| == |params|
            && forall i :: 0 <= i < |pieces| ==>
                 Split(pieces[i], '=') == [EncodeComponent(keys[i]), EncodeComponent(params[keys[i]])]
  {
    var keys := Sort(order);
    EnumerationSize(order, params);
    PiecesOfJoinedPairs(params, keys);
    PairsSplit(params, keys);
  }

  /** Cutting the joined pairs at `&` gives back the pairs. */
  lemma PiecesOfJoinedPairs(params: map<string, string>, keys: seq<string>)
    requires forall i :: 0 <= i < |keys| ==> keys[i] in params
    requires |keys| > 0
    ensures Split(Join(Pairs(params, keys), "&"), '&') == Pairs(params, keys)
  {
    PairsShape(params, keys);
    SplitJoin(Pairs(params, keys), '&');
  }

  lemma SpaceIsPercent20()
    ensures PercentEncodeChar(' ') == "%20"
  {
    assert Utf8(' ') == [0x20];
    assert PercentBytes([0x20]) == PercentByte(0x20) + PercentBytes([]);
  }

  lemma StarIsPercent2A()
    ensures PercentEncodeChar('*') == "%2A"
  {
    assert Utf8('*') == [0x2A];
    assert PercentBytes([0x2A]) == PercentByte(0x2A) + PercentBytes([]);
  }

  lemma ExampleValueWithSpace()
    ensures EncodeComponent("b c") == "b%20c"
  {
    PercentEncodeOfSpaced();
  }

  lemma PercentEncodeOfSpaced()
    ensures PercentEncode("b c") == "b%20c"
  {
    SpaceIsPercent20();
    assert PercentEncode("c") == "c";
    assert PercentEncode(" c") == "%20" + PercentEncode("c");
    assert PercentEncode("b c") == "b" + PercentEncode(" c");
  }

  lemma ExampleValueWithStar()
    ensures EncodeComponent("y*z") == "y%2Az"
  {
    PercentEncodeOfStarred();
  }

  lemma PercentEncodeOfStarred()
    ensures PercentEncode("y*z") == "y%2Az"
  {
    StarIsPercent2A();
    assert PercentEncode("z") == "z";
    assert PercentEncode("*z") == "%2A" + PercentEncode("z");
    assert PercentEncode("y*z") == "y" + PercentEncode("*z");
  }

  lemma ExampleNames()
    ensures EncodeComponent("a") == "a" && EncodeComponent("x") == "x"
  {
    assert PercentEncode("a") == "a";
    assert PercentEncode("x") == "x";
  }

  lemma ExamplePairs()
    ensures (EncodeComponent("a") + "=" + EncodeComponent("b c")) + "&"
          + (EncodeComponent("x") + "=" + EncodeComponent("y*z")) == "a=b%20c&x=y%2Az"
  {
    ExampleValueWithSpace();
    ExampleValueWithStar();
    ExampleNames();
    ExampleConcat(EncodeComponent("a"), EncodeComponent("b c"), EncodeComponent("x"), EncodeComponent("y*z"));
  }

  lemma ExampleConcat(a: string, b: string, x: string, y: string)
    requires a == "a" && b == "b%20c" && x == "x" && y == "y%2Az"
    ensures (a + "=" + b) + "&" + (x + "=" + y) == "a=b%20c&x=y%2Az"
  {
  }

  /** A two-parameter query string, spelled out. */
  lemma QueryStringOfTwo(params: map<string, string>, order: seq<string>, k1: string, k2: string)
    requires Enumerates(order, params)
    requires params.Keys == {k1, k2} && Less(k1, k2)
    ensures QueryString(params, order)
         == (EncodeComponent(k1) + "=" + EncodeComponent(params[k1])) + "&"
          + (EncodeComponent(k2) + "=" + EncodeComponent(params[k2]))
  {
    SortOfTwo(params, order, k1, k2);
    JoinPairsOfTwo(params, k1, k2);
  }

  lemma SortOfTwo(params: map<string, string>, order: seq<string>, k1: string, k2: string)
    requires Enumerates(order, params)
    requires params.Keys == {k1, k2} && Less(k1, k2)
    ensures Sort(order) == [k1, k2]
  {
    LessIrreflexive(k1);
    SortedUnique(Sort(order), [k1, k2]);
  }

  lemma JoinPairsOfTwo(params: map<string, string>, k1: string, k2: string)
    requires k1 in params && k2 in params
    ensures Join(Pairs(params, [k1, k2]), "&")
         == (EncodeComponent(k1) + "=" + EncodeComponent(params[k1])) + "&"
          + (EncodeComponent(k2) + "=" + EncodeComponent(params[k2]))
  {
    PairsOfTwo(params, k1, k2);
    JoinOfTwo(Pairs(params, [k1, k2]), EncodeComponent(k1) + "=" + EncodeComponent(params[k1]),
              EncodeComponent(k2) + "=" + EncodeComponent(params[k2]), "&");
  }

  lemma PairsOfTwo(params: map<string, string>, k1: string, k2: string)
    requires k1 in params && k2 in params
    ensures |Pairs(params, [k1, k2])| == 2
    ensures Pairs(params, [k1, k2])[0] == EncodeComponent(k1) + "=" + EncodeComponent(params[k1])
    ensures Pairs(params, [k1, k2])[1] == EncodeComponent(k2) + "=" + EncodeComponent(params[k2])
  {
  }

  /** Worked example: `{"a": "b c", "x": "y*z"}` encodes to `a=b%20c&x=y%2Az`. */
  lemma ExampleQueryString()
    ensures QueryString(map["a" := "b c", "x" := "y*z"], ["x", "a"]) == "a=b%20c&x=y%2Az"
  {
    var params := map["a" := "b c", "x" := "y*z"];
    assert Enumerates(["x", "a"], params);
    assert Less("a", "x");
    QueryStringOfTwo(params, ["x", "a"], "a", "x");
    assert params["a"] == "b c" && params["x"] == "y*z";
    ExamplePairs();
  }
}

=== FILE: receiver.dfy ===
/** The other end of the protocol: what a receiver holding the same keys
    recomputes from a request as it arrives. The canonical string is rebuilt
    from the method, the `Host` and `Date` headers, the path in the URL and the
    query string found in the URL or the body. The point of this module is that
    the rebuilt string is exactly the one `signRequest` signed
    (Http.java:138-150 together with 85-109), so the `Authorization` header
    checks out. */
module Receiver {
  import opened Results
  import opened Strings
  import opened Client
  import opened Canonical
  import opened Signer
  import opened Dispatch

  /** The value of the first header called `name`, if any. */
  function FirstHeader(headers: seq<Header>, name: string): (r: Option<string>)
    ensures r.None? <==> CountNamed(headers, name) == 0
    ensures r.Some? ==> Header(name, r.value) in headers
  {
    if |headers| == 0 then None
    else if headers[0].name == name then Some(headers[0].value)
    else FirstHeader(headers[1..], name)
  }

  lemma {:induction false} FirstHeaderAppend(a: seq<Header>, b: seq<Header>, name: string)
    requires CountNamed(a, name) == 0
    ensures FirstHeader(a + b, name) == FirstHeader(b, name)
  {
    if |a| > 0 {
      assert (a + b)[1..] == a[1..] + b;
      FirstHeaderAppend(a[1..], b, name);
    } else {
      assert a + b == b;
    }
  }

  /** The canonical string as the receiver rebuilds it, or `None` when the
      request lacks a header it needs or its URL does not start with the
      `Host` it names. */
  function Rebuild(req: OutgoingRequest, sigVersion: int): Option<string>
  {
    var host := FirstHeader(req.headers, "Host");
    var date := FirstHeader(req.headers, "Date");
    if host.None? || (sigVersion == 2 && date.None?) then None
    else
      var prefix := "https://" + host.value;
      var target := Target(req.url);
      if !(prefix <= target) then None
      else
        Some((if sigVersion == 2 then date.value + "\n" else "")
          + (ToUpper(VerbName(req.verb)) + "\n"
          + (ToLower(host.value) + "\n"
          + (target[|prefix|..] + "\n"
          + WireQuery(req)))))
  }

  /** The headers after signing are the old ones followed by what was added. */
  lemma SignedHeadersSplit(h: Http, signed: Http, sigVersion: int, auth: string, date: string)
    requires |signed.headers| == |h.headers| + (if sigVersion == 2 then 2 else 1)
    requires signed.headers[..|h.headers|] == h.headers
    requires signed.headers[|h.headers|] == Header("Authorization", auth)
    requires sigVersion == 2 ==> signed.headers[|h.headers| + 1] == Header("Date", date)
    requires CountNamed(h.headers, "Date") == 0 && CountNamed(h.headers, "Authorization") == 0
    ensures FirstHeader(signed.headers, "Authorization") == Some(auth)
    ensures sigVersion == 2 ==> FirstHeader(signed.headers, "Date") == Some(date)
  {
    var added := signed.headers[|h.headers|..];
    assert signed.headers == h.headers + added;
    FirstHeaderAppend(h.headers, added, "Authorization");
    FirstHeaderAppend(h.headers, added, "Date");
    assert added[0] == Header("Authorization", auth);
    if sigVersion == 2 {
      assert added[1..] == [Header("Date", date)];
    }
  }

  /** A request that was signed and then built is rebuilt, on arrival, into
      exactly the canonical string that was signed, and its `Authorization`
      header is what a receiver with the same keys computes from that string.
      This needs the `Host` header first (as the constructor leaves it), no
      earlier `Date` or `Authorization` header, a host and path that OkHttp's
      URL parser sends unchanged, and a host and date that the header builder
      passes through unchanged (for any other it throws or trims them). */
  lemma SignedRequestRebuildsCanon(h: Http, ikey: string, skey: string, sigVersion: int, date: string,
                                   hmacHex: HmacHex, base64: Base64)
    requires Valid(h)
    requires |h.headers| >= 1 && h.headers[0] == Header("Host", h.host)
    requires CountNamed(h.headers, "Date") == 0 && CountNamed(h.headers, "Authorization") == 0
    requires UrlKeeps(h.host, h.uri)
    requires HeaderKeeps(h.host) && (sigVersion == 2 ==> HeaderKeeps(date))
    requires BuildRequest(SignRequest(h, ikey, skey, sigVersion, date, hmacHex, base64)).Ok?
    ensures var req := BuildRequest(SignRequest(h, ikey, skey, sigVersion, date, hmacHex, base64)).value;
            && Rebuild(req, sigVersion) == Some(CanonRequest(h, date, sigVersion))
            && FirstHeader(req.headers, "Authorization")
               == Some(AuthorizationFor(ikey, skey, Rebuild(req, sigVersion).value, hmacHex, base64))
  {
    var signed := SignRequest(h, ikey, skey, sigVersion, date, hmacHex, base64);
    var req := BuildRequest(signed).value;
    var canon := CanonRequest(h, date, sigVersion);
    SignedHeadersSplit(h, signed, sigVersion, AuthorizationFor(ikey, skey, canon, hmacHex, base64), date);
    assert signed.headers[0] == h.headers[0];
    assert FirstHeader(req.headers, "Host") == Some(h.host);
    WireQueryRecoversQuery(signed);
    assert QueryOf(signed) == QueryOf(h);
    RebuildFromParts(req, sigVersion, h.host, date, h.uri, QueryOf(h));
  }

  /** What `Rebuild` gives once the headers, the URL and the query string are known. */
  lemma RebuildFromParts(req: OutgoingRequest, sigVersion: int, host: string, date: string, uri: string, q: string)
    requires FirstHeader(req.headers, "Host") == Some(host)
    requires sigVersion == 2 ==> FirstHeader(req.headers, "Date") == Some(date)
    requires Target(req.url) == "https://" + host + uri
    requires WireQuery(req) == q
    ensures Rebuild(req, sigVersion)
         == Some((if sigVersion == 2 then date + "\n" else "")
              + (ToUpper(VerbName(req.verb)) + "\n" + (ToLower(host) + "\n" + (uri + "\n" + q))))
  {
    var prefix := "https://" + host;
    assert Target(req.url) == prefix + uri;
    assert (prefix + uri)[|prefix|..] == uri;
  }
}

=== FILE: results.dfy ===
/** Option and Result: the model's stand-ins for Java's `null`-free optional values and thrown exceptions. */
module Results {

  datatype Option<+T> = None | Some(value: T) {

    /** The wrapped value, or `default` when there is none. */
    function GetOr(default: T): (r: T)
      ensures Some? ==> r == value
      ensures None? ==> r == default
    {
      match this
      case Some(v) => v
      case None => default
    }
  }

  datatype Result<+T, +E> = Ok(value: T) | Err(error: E)
}

=== FILE: retry.dfy ===
/** The retry loop of `executeRequest(Request)` (Http.java:114-127): while the
    response is HTTP 429 (Too Many Requests, section 4 of RFC 6585) and fewer
    than `MAX_REQUEST_ATTEMPTS` calls have been made, sleep for a capped,
    jittered exponential backoff and send the same request again.

    The transport is a function from the request and the call number (0 for
    the first call) to the status code it answers; `random.nextInt(1000)` is a
    function from the retry number to the value it draws. Sleeping is recorded,
    not performed. */
module Retry {

  const MAX_REQUEST_ATTEMPTS: nat := 8
  const BACKOFF_FACTOR: nat := 2
  const MAX_BACKOFF_MS: nat := 32000
  const TOO_MANY_REQUESTS: int := 429
  /** The bound passed to `random.nextInt`. */
  const JITTER_BOUND: nat := 1000

  function Pow(base: nat, exp: nat): nat
  {
    if exp == 0 then 1 else base * Pow(base, exp - 1)
  }

  function Min(a: int, b: int): int
  {
    if a <= b then a else b
  }

  /** The sleep before the call that follows attempt number `attempts` (counted from 1).
      Only the attempts the loop reaches, 1 to `MAX_REQUEST_ATTEMPTS - 1`, are
      modelled: `Math.pow` returns a double, but for their exponents (at most 6)
      it is exact, so the `(int)` cast loses nothing. Every sleep is at most
      `MAX_BACKOFF_MS`; with a jitter `random.nextInt` can return it is at least
      the un-jittered backoff (capped) and less than that backoff plus
      `JITTER_BOUND`. */
  function Backoff(attempts: nat, jitter: int): (r: int)
    requires 1 <= attempts < MAX_REQUEST_ATTEMPTS
    ensures r <= MAX_BACKOFF_MS
    ensures 0 <= jitter < JITTER_BOUND ==>
              Min(Pow(BACKOFF_FACTOR, attempts - 1) * 1000, MAX_BACKOFF_MS) <= r
              && r < Pow(BACKOFF_FACTOR, attempts - 1) * 1000 + JITTER_BOUND
  {
    Min(Pow(BACKOFF_FACTOR, attempts - 1) * 1000 + jitter, MAX_BACKOFF_MS)
  }

  /** Every value `random.nextInt(JITTER_BOUND)` can return lies in `[0, JITTER_BOUND)`. */
  ghost predicate ValidJitter(jitter: nat -> int)
  {
    forall k :: 0 <= jitter(k) < JITTER_BOUND
  }

  /** From the sixth attempt on (the sixth and seventh) the cap always applies. */
  lemma {:induction false} BackoffSaturates(attempts: nat, jitter: int)
    requires 6 <= attempts < MAX_REQUEST_ATTEMPTS && 0 <= jitter < JITTER_BOUND
    ensures Backoff(attempts, jitter) == MAX_BACKOFF_MS
  {
    PowMonotone(5, attempts - 1);
    assert Pow(2, 5) == 32;
  }

  lemma {:induction false} PowMonotone(i: nat, j: nat)
    requires i <= j
    ensures Pow(2, i) <= Pow(2, j)
  {
    if i < j {
      PowMonotone(i, j - 1);
    }
  }

  /** What the loop is meant to do, stated without the loop: `calls` transmissions
      were made, all but the last answered 429, the last answer is returned, and the
      loop stopped either because that answer was not 429 or because the attempts
      ran out. */
  ghost predicate RetryOutcome<R>(transport: (R, nat) -> int, request: R, status: int, calls: nat)
  {
    && 1 <= calls <= MAX_REQUEST_ATTEMPTS
    && status == transport(request, calls - 1)
    && (forall k :: 0 <= k < calls - 1 ==> transport(request, k) == TOO_MANY_REQUESTS)
    && (calls < MAX_REQUEST_ATTEMPTS ==> status != TOO_MANY_REQUESTS)
  }

  /** The outcome is determined by the transport: there is only one. */
  lemma RetryOutcomeUnique<R>(transport: (R, nat) -> int, request: R,
                              status1: int, calls1: nat, status2: int, calls2: nat)
    requires RetryOutcome(transport, request, status1, calls1)
    requires RetryOutcome(transport, request, status2, calls2)
    ensures calls1 == calls2 && status1 == status2
  {
  }

  /** `executeRequest(request)`: returns the final status, the requests sent, in
      order, and the sleeps taken between them. */
  method ExecuteRequest<R(==)>(request: R, transport: (R, nat) -> int, jitter: nat -> int)
    returns (status: int, sent: seq<R>, sleeps: seq<int>)
    requires ValidJitter(jitter)
    ensures RetryOutcome(transport, request, status, |sent|)
    ensures forall i :: 0 <= i < |sent| ==> sent[i] == request
    ensures |sleeps| == |sent| - 1
    ensures forall k :: 0 <= k < |sleeps| ==> sleeps[k] == Backoff(k + 1, jitter(k))
    ensures forall k :: 0 <= k < |sleeps| ==>
              Min(Pow(BACKOFF_FACTOR, k) * 1000, MAX_BACKOFF_MS) <= sleeps[k] <= MAX_BACKOFF_MS
  {
    status := transport(request, 0);
    sent := [request];
    sleeps := [];
    var attempts := 1;
    while attempts < MAX_REQUEST_ATTEMPTS && status == TOO_MANY_REQUESTS
      invariant 1 <= attempts <= MAX_REQUEST_ATTEMPTS
      invariant |sent| == attempts && |sleeps| == attempts - 1
      invariant forall i :: 0 <= i < |sent| ==> sent[i] == request
      invariant status == transport(request, attempts - 1)
      invariant forall k :: 0 <= k < attempts - 1 ==> transport(request, k) == TOO_MANY_REQUESTS
      invariant forall k :: 0 <= k < |sleeps| ==> sleeps[k] == Backoff(k + 1, jitter(k))
      decreases MAX_REQUEST_ATTEMPTS - attempts
    {
      sleeps := sleeps + [Backoff(attempts, jitter(attempts - 1))];
      status := transport(request, attempts);
      sent := sent + [request];
      attempts := attempts + 1;
    }
  }

  /** A run that sleeps between every pair of calls waits at most this long in all. */
  function Sum(xs: seq<int>): int
  {
    if |xs| == 0 then 0 else xs[0] + Sum(xs[1..])
  }

  lemma {:induction false} SumBound(xs: seq<int>, bound: int)
    requires forall k :: 0 <= k < |xs| ==> xs[k] <= bound
    ensures Sum(xs) <= |xs| * bound
  {
    if |xs| > 0 {
      SumBound(xs[1..], bound);
    }
  }

  /** The whole retry sequence sleeps at most seven times 32 seconds. */
  lemma TotalSleepBounded(sleeps: seq<int>)
    requires |sleeps| <= MAX_REQUEST_ATTEMPTS - 1
    requires forall k :: 0 <= k < |sleeps| ==> sleeps[k] <= MAX_BACKOFF_MS
    ensures Sum(sleeps) <= (MAX_REQUEST_ATTEMPTS - 1) * MAX_BACKOFF_MS
  {
    SumBound(sleeps, MAX_BACKOFF_MS);
  }

  /** Three 429 answers and then 200: four calls, and the 200 is returned. */
  lemma ExampleThreeThrottledThenOk(transport: (int, nat) -> int, status: int, calls: nat)
    requires forall k :: transport(0, k) == (if k < 3 then TOO_MANY_REQUESTS else 200)
    requires RetryOutcome(transport, 0, status, calls)
    ensures calls == 4 && status == 200
  {
    assert transport(0, 3) == 200;
  }

  /** A transport that always answers 429 is called exactly eight times, and its
      last 429 is returned rather than raised. */
  lemma ExampleAlwaysThrottled(transport: (int, nat) -> int, status: int, calls: nat)
    requires forall k :: transport(0, k) == TOO_MANY_REQUESTS
    requires RetryOutcome(transport, 0, status, calls)
    ensures calls == MAX_REQUEST_ATTEMPTS && status == TOO_MANY_REQUESTS
  {
  }
}

=== FILE: signer.dfy ===
/** `signRequest` and `signHMAC` (Http.java:133-160). HMAC-SHA1 with hex
    output and the Base64 encoding of the credentials are library calls whose
    code is not part of this model; they are parameters here. The clock is too:
    the caller supplies the already formatted date. */
module Signer {
  import opened Results
  import opened Client
  import opened Canonical

  /** `Util.bytes_to_hex(Util.hmacSha1(key, msg))`; `None` when the library throws. */
  type HmacHex = (string, string) -> Option<string>

  /** `Base64.encodeBytes(s.getBytes())`. */
  type Base64 = string -> string

  /** `signHMAC` (Http.java:152-160): the hex digest, or the empty string when
      computing it throws. */
  function SignHmac(hmacHex: HmacHex, skey: string, msg: string): (sig: string)
    ensures hmacHex(skey, msg).Some? ==> sig == hmacHex(skey, msg).value
    ensures hmacHex(skey, msg).None? ==> sig == ""
  {
    hmacHex(skey, msg).GetOr("")
  }

  /** The `Authorization` value for a given canonical string (Http.java:141-145):
      HTTP Basic credentials whose user is the integration key and whose password
      is the signature of the canonical string, or empty when signing fails. */
  function AuthorizationFor(ikey: string, skey: string, canon: string, hmacHex: HmacHex, base64: Base64): (auth: string)
    ensures "Basic " <= auth
    ensures hmacHex(skey, canon).Some? ==>
              auth[|"Basic "|..] == base64(ikey + ":" + hmacHex(skey, canon).value)
    ensures hmacHex(skey, canon).None? ==> auth[|"Basic "|..] == base64(ikey + ":")
  {
    assert ikey + ":" + "" == ikey + ":";
    "Basic " + base64(ikey + ":" + SignHmac(hmacHex, skey, canon))
  }

  /** `signRequest(ikey, skey, sig_version)` with the formatted `date`. */
  function SignRequest(h: Http, ikey: string, skey: string, sigVersion: int, date: string,
                       hmacHex: HmacHex, base64: Base64): (r: Http)
    requires Valid(h)
    ensures Valid(r) && r.(headers := h.headers) == h
    ensures |r.headers| == |h.headers| + (if sigVersion == 2 then 2 else 1)
    ensures r.headers[..|h.headers|] == h.headers
    ensures r.headers[|h.headers|]
         == Header("Authorization", AuthorizationFor(ikey, skey, CanonRequest(h, date, sigVersion), hmacHex, base64))
    ensures sigVersion == 2 ==> r.headers[|h.headers| + 1] == Header("Date", date)
    ensures CountNamed(r.headers, "Authorization") == CountNamed(h.headers, "Authorization") + 1
    ensures CountNamed(r.headers, "Date") == CountNamed(h.headers, "Date") + (if sigVersion == 2 then 1 else 0)
    ensures forall other :: other != "Authorization" && other != "Date" ==>
              CountNamed(r.headers, other) == CountNamed(h.headers, other)
  {
    var canon := CanonRequest(h, date, sigVersion);
    var signed := AddHeader(h, "Authorization", AuthorizationFor(ikey, skey, canon, hmacHex, base64));
    if sigVersion == 2 then
      var dated := AddHeader(signed, "Date", date);
      assert dated.headers[..|h.headers|] == signed.headers[..|signed.headers|][..|h.headers|];
      dated
    else
      signed
  }

  /** `signRequest(ikey, skey)` (Http.java:133-136) signs with version 2. */
  function SignRequestDefault(h: Http, ikey: string, skey: string, date: string,
                              hmacHex: HmacHex, base64: Base64): (r: Http)
    requires Valid(h)
    ensures r == SignRequest(h, ikey, skey, 2, date, hmacHex, base64)
    ensures CountNamed(r.headers, "Date") == CountNamed(h.headers, "Date") + 1
  {
    SignRequest(h, ikey, skey, 2, date, hmacHex, base64)
  }
}

=== FILE: strings.dfy ===
/** String helpers with the semantics of the Java library calls the signer uses:
    joining with a separator, `String.replace(CharSequence, CharSequence)`,
    and ASCII case mapping. Also a splitter used to state inverse properties. */
module Strings {

  /** `parts` joined with `sep` between consecutive elements and nowhere else. */
  function Join(parts: seq<string>, sep: string): (r: string)
    ensures |parts| == 0 ==> r == ""
    ensures |parts| > 0 ==> parts[0] <= r
    ensures |parts| == 1 ==> r == parts[0]
    ensures |parts| > 1 ==> |r| >= |parts[0]| + |sep| && r[|parts[0]|..|parts[0]| + |sep|] == sep
  {
    if |parts| == 0 then ""
    else if |parts| == 1 then parts[0]
    else parts[0] + sep + Join(parts[1..], sep)
  }

  lemma JoinOfTwo(parts: seq<string>, a: string, b: string, sep: string)
    requires |parts| == 2 && parts[0] == a && parts[1] == b
    ensures Join(parts, sep) == a + sep + b
  {
    assert parts[1..] == [b];
  }

  /** Position of the first occurrence of `c` in `s`. */
  function IndexOf(s: string, c: char): (i: nat)
    requires c in s
    ensures i < |s| && s[i] == c
    ensures c !in s[..i]
  {
    if s[0] == c then 0 else 1 + IndexOf(s[1..], c)
  }

  /** `s` cut at every occurrence of `sep`; the separators themselves are dropped. */
  function Split(s: string, sep: char): (r: seq<string>)
    ensures |r| >= 1
    decreases |s|
  {
    if sep !in s then [s]
    else
      var i := IndexOf(s, sep);
      [s[..i]] + Split(s[i + 1..], sep)
  }

  lemma IndexOfAfterPrefix(a: string, c: char, b: string)
    requires c !in a
    ensures c in a + [c] + b
    ensures IndexOf(a + [c] + b, c) == |a|
  {
    if |a| > 0 {
      assert (a + [c] + b)[1..] == a[1..] + [c] + b;
      IndexOfAfterPrefix(a[1..], c, b);
    }
  }

  /** Splitting a join recovers the parts, provided no part contains the separator. */
  lemma {:induction false} SplitJoin(parts: seq<string>, sep: char)
    requires |parts| >= 1
    requires forall i :: 0 <= i < |parts| ==> sep !in parts[i]
    ensures Split(Join(parts, [sep]), sep) == parts
  {
    if |parts| > 1 {
      var rest := Join(parts[1..], [sep]);
      var s := parts[0] + [sep] + rest;
      assert Join(parts, [sep]) == s;
      IndexOfAfterPrefix(parts[0], sep, rest);
      assert s[..|parts[0]|] == parts[0];
      assert s[|parts[0]| + 1..] == rest;
      SplitJoin(parts[1..], sep);
    }
  }

  /** Joining the pieces of a split restores the string. */
  /** Splitting never introduces a character that the text lacks. */
  lemma {:induction false} SplitPartsLack(s: string, sep: char, c: char)
    requires c !in s
    ensures forall part :: part in Split(s, sep) ==> c !in part
    decreases |s|
  {
    if sep in s {
      var i := IndexOf(s, sep);
      SplitPartsLack(s[i + 1..], sep, c);
      assert Split(s, sep) == [s[..i]] + Split(s[i + 1..], sep);
    }
  }

  lemma {:induction false} JoinSplit(s: string, sep: char)
    ensures Join(Split(s, sep), [sep]) == s
    decreases |s|
  {
    if sep in s {
      var i := IndexOf(s, sep);
      var head, tail := s[..i], s[i + 1..];
      var rest := Split(tail, sep);
      assert Split(s, sep) == [head] + rest;
      JoinSplit(tail, sep);
      assert ([head] + rest)[1..] == rest;
      assert Join([head] + rest, [sep]) == head + [sep] + Join(rest, [sep]);
      assert s == head + [sep] + tail;
    }
  }

  lemma JoinNoChar(parts: seq<string>, sep: string, c: char)
    requires c !in sep
    requires forall i :: 0 <= i < |parts| ==> c !in parts[i]
    ensures c !in Join(parts, sep)
  {
    if |parts| > 1 {
      JoinNoChar(parts[1..], sep, c);
    }
  }

  /** Java's `s.replace(target, replacement)`: scanning left to right, every
      non-overlapping occurrence of `target` is replaced. An empty target
      matches before every character and at the end. */
  function ReplaceAll(s: string, target: string, replacement: string): (r: string)
    ensures |target| > 0 && |replacement| <= |target| ==> |r| <= |s|
    ensures |target| > 0 && |replacement| >= |target| ==> |r| >= |s|
    decreases |s|
  {
    if |target| == 0 then
      if |s| == 0 then replacement
      else replacement + [s[0]] + ReplaceAll(s[1..], target, replacement)
    else if target <= s then replacement + ReplaceAll(s[|target|..], target, replacement)
    else if |s| == 0 then ""
    else [s[0]] + ReplaceAll(s[1..], target, replacement)
  }

  /** Replacing a single character is a character-wise map, so it distributes over concatenation. */
  lemma {:induction false} ReplaceCharDistributes(a: string, b: string, c: char, replacement: string)
    ensures ReplaceAll(a + b, [c], replacement)
         == ReplaceAll(a, [c], replacement) + ReplaceAll(b, [c], replacement)
  {
    if |a| > 0 {
      assert (a + b)[1..] == a[1..] + b;
      assert [c] <= a + b <==> [c] <= a;
      ReplaceCharDistributes(a[1..], b, c, replacement);
    } else {
      assert a + b == b;
    }
  }

  /** A character that does not occur is not replaced. */
  lemma {:induction false} ReplaceCharAbsent(s: string, c: char, replacement: string)
    requires c !in s
    ensures ReplaceAll(s, [c], replacement) == s
  {
    if |s| > 0 {
      assert s[0] != c;
      ReplaceCharAbsent(s[1..], c, replacement);
      assert s == [s[0]] + s[1..];
    }
  }

  /** After a single-character replacement whose replacement text lacks that
      character, the character no longer occurs. */
  lemma {:induction false} ReplaceCharRemoves(s: string, c: char, replacement: string)
    requires c !in replacement
    ensures c !in ReplaceAll(s, [c], replacement)
  {
    if |s| > 0 {
      ReplaceCharRemoves(s[1..], c, replacement);
    }
  }

  /** A text in which the target cannot start is left as it is. */
  lemma {:induction false} ReplaceWithoutTarget(s: string, target: string, replacement: string)
    requires |target| > 0
    ensures target[0] !in s ==> ReplaceAll(s, target, replacement) == s
    decreases |s|
  {
    if target[0] !in s && |s| > 0 {
      assert !(target <= s);
      ReplaceWithoutTarget(s[1..], target, replacement);
      assert s == [s[0]] + s[1..];
    }
  }

  /** A replacement never introduces a character found neither in the text nor in the replacement. */
  lemma {:induction false} ReplaceKeepsAbsent(s: string, target: string, replacement: string, c: char)
    requires |target| > 0 && c !in s && c !in replacement
    ensures c !in ReplaceAll(s, target, replacement)
    decreases |s|
  {
    if target <= s {
      ReplaceKeepsAbsent(s[|target|..], target, replacement, c);
    } else if |s| > 0 {
      ReplaceKeepsAbsent(s[1..], target, replacement, c);
    }
  }

  predicate IsLowerAscii(c: char) { 'a' <= c <= 'z' }
  predicate IsUpperAscii(c: char) { 'A' <= c <= 'Z' }

  function UpperChar(c: char): char
  {
    if IsLowerAscii(c) then (c as int - 32) as char else c
  }

  function LowerChar(c: char): char
  {
    if IsUpperAscii(c) then (c as int + 32) as char else c
  }

  /** `String.toUpperCase()` restricted to the ASCII letters. */
  function ToUpper(s: string): string
  {
    seq(|s|, i requires 0 <= i < |s| => UpperChar(s[i]))
  }

  /** `String.toLowerCase()` restricted to the ASCII letters. */
  function ToLower(s: string): string
  {
    seq(|s|, i requires 0 <= i < |s| => LowerChar(s[i]))
  }

  /** Upper-casing leaves no lower-case letter, changes nothing else than letters,
      and a second application is a no-op. */
  lemma ToUpperProperties(s: string)
    ensures |ToUpper(s)| == |s|
    ensures forall i :: 0 <= i < |s| ==> !IsLowerAscii(ToUpper(s)[i])
    ensures forall i :: 0 <= i < |s| && !IsLowerAscii(s[i]) ==> ToUpper(s)[i] == s[i]
    ensures ToUpper(ToUpper(s)) == ToUpper(s)
  {
  }

  /** Case mapping never introduces a character outside the ASCII letters. */
  lemma CaseMappingKeepsChar(s: string, c: char)
    requires !IsLowerAscii(c) && !IsUpperAscii(c)
    ensures c in ToUpper(s) <==> c in s
    ensures c in ToLower(s) <==> c in s
  {
    if c in ToUpper(s) {
      var i :| 0 <= i < |s| && ToUpper(s)[i] == c;
      assert s[i] == c;
    }
    if c in ToLower(s) {
      var i :| 0 <= i < |s| && ToLower(s)[i] == c;
      assert s[i] == c;
    }
    if c in s {
      var i :| 0 <= i < |s| && s[i] == c;
      assert ToUpper(s)[i] == c;
      assert ToLower(s)[i] == c;
    }
  }
}

=== FILE: unicode.dfy ===
/** The two character encodings the signer depends on implicitly: UTF-8, which
    `URLEncoder.encode(_, "UTF-8")` percent-encodes byte by byte, and UTF-16,
    whose code units `String.compareTo` compares. Dafny's `char` is a Unicode
    scalar value (surrogates excluded), so every character has both encodings. */
module Unicode {

  type Byte = b: int | 0 <= b < 256

  /** The UTF-8 encoding of one scalar value (section 3 of RFC 3629). */
  function Utf8(c: char): (r: seq<Byte>)
    ensures 1 <= |r| <= 4
    ensures |r| == 1 <==> c as int < 0x80
    ensures |r| == 1 ==> r[0] == c as int
    ensures |r| > 1 ==> forall i :: 0 <= i < |r| ==> r[i] >= 0x80
  {
    var cp := c as int;
    if cp < 0x80 then [cp]
    else if cp < 0x800 then [0xC0 + cp / 64, 0x80 + cp % 64]
    else if cp < 0x1_0000 then [0xE0 + cp / 4096, 0x80 + (cp / 64) % 64, 0x80 + cp % 64]
    else [0xF0 + cp / 262144, 0x80 + (cp / 4096) % 64, 0x80 + (cp / 64) % 64, 0x80 + cp % 64]
  }

  /** Reads back the scalar value of one UTF-8 sequence. */
  function Utf8Decode(bs: seq<Byte>): int
  {
    if |bs| == 1 then bs[0]
    else if |bs| == 2 then (bs[0] as int - 0xC0) * 64 + (bs[1] as int - 0x80)
    else if |bs| == 3 then (bs[0] as int - 0xE0) * 4096 + (bs[1] as int - 0x80) * 64 + (bs[2] as int - 0x80)
    else if |bs| == 4 then (bs[0] as int - 0xF0) * 262144 + (bs[1] as int - 0x80) * 4096 + (bs[2] as int - 0x80) * 64 + (bs[3] as int - 0x80)
    else -1
  }

  lemma Split64(x: int)
    requires x >= 0
    ensures x == (x / 64) * 64 + x % 64
  {
  }

  /** Decoding the encoding of a character gives its scalar value back. */
  lemma Utf8RoundTrip(c: char)
    ensures Utf8Decode(Utf8(c)) == c as int
  {
    var cp := c as int;
    if cp < 0x80 {
    } else if cp < 0x800 {
      Split64(cp);
    } else if cp < 0x1_0000 {
      Split64(cp);
      Split64(cp / 64);
      assert cp / 64 / 64 == cp / 4096;
    } else {
      Split64(cp);
      Split64(cp / 64);
      Split64(cp / 4096);
      assert cp / 64 / 64 == cp / 4096;
      assert cp / 4096 / 64 == cp / 262144;
    }
  }

  /** Different characters have different UTF-8 encodings. */
  lemma Utf8Injective(c: char, d: char)
    requires Utf8(c) == Utf8(d)
    ensures c == d
  {
    Utf8RoundTrip(c);
    Utf8RoundTrip(d);
  }

  /** The only character whose UTF-8 encoding contains the byte `b < 0x80` is the ASCII character `b`. */
  lemma Utf8AsciiByte(c: char, i: nat, b: Byte)
    requires b < 0x80
    requires i < |Utf8(c)| && Utf8(c)[i] == b
    ensures c as int == b
  {
  }

  /** The length of a UTF-8 sequence, read off its first byte. */
  function Utf8Length(lead: Byte): (n: nat)
    ensures 1 <= n <= 4
  {
    if lead < 0x80 then 1 else if lead < 0xE0 then 2 else if lead < 0xF0 then 3 else 4
  }

  /** The first byte of an encoding announces its length. */
  lemma Utf8LeadLength(c: char)
    ensures Utf8Length(Utf8(c)[0]) == |Utf8(c)|
  {
  }

  /** The UTF-16 encoding of one scalar value: one code unit, or a surrogate pair. */
  function Utf16(c: char): (r: seq<int>)
    ensures |r| == 1 <==> c as int < 0x1_0000
    ensures |r| == 1 ==> r[0] == c as int
    ensures |r| == 2 ==> 0xD800 <= r[0] < 0xDC00 && 0xDC00 <= r[1] < 0xE000
    ensures |r| == 1 || |r| == 2
  {
    var cp := c as int;
    if cp < 0x1_0000 then [cp]
    else [0xD800 + (cp - 0x1_0000) / 1024, 0xDC00 + (cp - 0x1_0000) % 1024]
  }

  /** The code units of a Java string holding `s`. */
  function Utf16String(s: string): (r: seq<int>)
    ensures |r| >= |s|
  {
    if |s| == 0 then [] else Utf16(s[0]) + Utf16String(s[1..])
  }
}
